=== FILE: README.md ===
# Budget Copain: the application store, the month aggregator and the root navigator

Budget Copain is a personal-budget mobile application. Its logic lives in one
store: a single application state holding the user's profile (absent until
sign-up), a newest-first list of transactions, the spending categories (ten
built-in ones to start with) and a per-month budget record. Nine operations
replace that state. Every change is written to device storage while a
profile exists. A read-only month view adds up one month's expenses and
income, picks the month's budget and breaks the spending down by category.
The root navigator sends the user to the welcome screen, the onboarding or the
tabs, according to the profile. It also forwards bank-connection deep links
and hides the splash screen once loading is over.

The model is split into modules:

- `Types` (`types.dfy`): the records and enumerations of the data model. It also holds the shallow-merge `{...x, ...patch}` used by the update operations, with patches modelled as records of optional fields.
- `DefaultCategories` (`default_categories.dfy`): the seed list of ten categories and their theme colours.
- `Seqs` (`seqs.dfy`): `filter` on sequences.
- `Transitions` (`transitions.dfy`): each store operation as a pure function from the old state to the new one, plus lemmas about them and about sequences of operations.
- `AppContext` (`app_context.dfy`): the store as a class. It has the in-memory state, the stored document, the start-up load and the save guard. Each method replaces the state with the matching transition.
- `MonthData` (`month_data.dfy`): the month aggregator. Its category breakdown is sorted in place on an array, proved equal to a stable insertion sort.
- `RootLayout` (`layout.dfy`): the redirect rule, deep-link forwarding and the once-only splash flag.

Amounts are real numbers. A transaction's `type` field is called `kind`,
because `type` is a Dafny keyword. Ids made from the clock, dates, storage
contents and parsed link parameters are inputs.

Two behaviours of the month view are kept exactly as the code writes them:

- The month's budget is `totalBudget || 2000`: a month with no budget record, or with a budget of 0, gets a budget of 2000.
- A category's percentage is `(total / totalExpenses) * 100 || 0`. The `|| 0` only replaces a result of 0 or NaN. When the month's expenses sum to 0 while the category's total is positive, the quotient is an infinity and is kept. This needs some month expense with a negative amount, since the category's expenses are among the month's. `MonthData.Percentage` keeps the infinite values. `MonthData.PercentagesBounded` shows they cannot occur while all amounts are positive.

## Model

| member | source | states |
|---|---|---|
| Types.AllCategoryIds | types/index.ts:3-13 | the category identifiers are ten distinct values |
| Types.EveryCategoryIdListed | types/index.ts:3-13 | the enumeration lists every identifier |
| Types.CategoryIdNameInjective | types/index.ts:3-13 | two identifiers have the same string form exactly when they are the same identifier |
| Types.MergeConfig | contexts/AppContext.tsx:72-73 | every profile field is the patch's value when the patch sets it and the old value otherwise; an empty patch changes nothing |
| Types.MergeTransaction | contexts/AppContext.tsx:107 | an empty patch changes nothing; a field the patch sets takes the patch's value, a field it leaves out keeps the old value |
| Types.MergeCategory | contexts/AppContext.tsx:130 | an empty patch changes nothing; a field the patch sets takes the patch's value, a field it leaves out keeps the old value |
| Types.MergeCategoryIdempotent | contexts/AppContext.tsx:130 | applying the same category patch twice equals applying it once |
| Types.MergeConfigComposes | contexts/AppContext.tsx:72-73 | merging one profile patch and then another equals merging their overlay once |
| Types.MergeTransactionIdempotent | contexts/AppContext.tsx:107 | applying the same transaction patch twice equals applying it once |
| DefaultCategories.CategoryColor | constants/Colors.ts:15-26 | each identifier's theme colour is seven characters long and starts with `#` |
| DefaultCategories.Seed | constants/defaultCategories.ts:5-11 | a seed entry is active and coloured from the theme colour of its identifier |
| DefaultCategories.Defaults | constants/defaultCategories.ts:4-75 | ten active categories with distinct identifiers, in enumeration order (food first, other last), each coloured with its theme colour |
| DefaultCategories.DefaultsCoverEveryId | constants/defaultCategories.ts:4-75 | every identifier has exactly one seed category |
| Seqs.Filter | contexts/AppContext.tsx:98 | the kept elements are exactly those of the input that satisfy the predicate; the result is no longer than the input |
| Seqs.FilterConcat | contexts/AppContext.tsx:98 | filtering distributes over concatenation, so relative order is kept |
| Seqs.FilterKeepsAll | contexts/AppContext.tsx:98 | a filter returns its input unchanged exactly when every element satisfies the predicate |
| Seqs.FilterEmpty | contexts/AppContext.tsx:196-217 | a filter returns nothing exactly when no element satisfies the predicate |
| Seqs.FilterIdempotent | contexts/AppContext.tsx:98 | filtering twice by one predicate equals filtering once |
| Transitions.DefaultUserConfig | contexts/AppContext.tsx:10-20 | the default profile has onboarding not completed, the free plan, and an empty first name and e-mail |
| Transitions.Bootstrap | contexts/AppContext.tsx:23-28 | the initial state has no profile, no transactions and no budgets, and holds the ten default categories; it trivially has positive amounts and unique ids |
| Transitions.UpdateUserConfig | contexts/AppContext.tsx:68-75 | afterwards a profile exists; it is the patch merged over the old profile, or over the default profile when there was none; transactions, categories and budgets are unchanged |
| Transitions.FirstUpdateStartsFromDefaults | contexts/AppContext.tsx:10-20 | with no profile, every field the patch leaves out takes its default value: goal save, comfort balanced, manual usage, currency €, first day of week 1, free plan, onboarding not completed |
| Transitions.CompleteOnboarding | contexts/AppContext.tsx:77-82 | onboarding is completed afterwards, even if the patch says otherwise; otherwise the same profile as the plain update; nothing else changes |
| Transitions.AddTransaction | contexts/AppContext.tsx:84-93 | the list grows by one; its head is the draft with the given id; its tail is the old list; nothing else changes |
| Transitions.DeleteTransaction | contexts/AppContext.tsx:95-100 | exactly the transactions with another id remain; the list does not grow; nothing else changes |
| Transitions.DeleteAbsentIsNoOp | contexts/AppContext.tsx:95-100 | deleting an id that no transaction has leaves the state equal to the old one |
| Transitions.DeleteKeepsOrder | contexts/AppContext.tsx:95-100 | deleting from a list split in two is deleting from each part, so survivors keep their order |
| Transitions.AddThenDeleteRestores | contexts/AppContext.tsx:84-100 | adding a transaction with a fresh id and then deleting that id gives back the original state |
| Transitions.UpdateTransaction | contexts/AppContext.tsx:102-112 | same length; entries with the id are patched in place, the others are untouched; an absent id changes nothing; nothing else changes |
| Transitions.UpdateTransactionIdempotent | contexts/AppContext.tsx:102-112 | applying the same update twice equals applying it once |
| Transitions.AddCategory | contexts/AppContext.tsx:114-123 | the draft is appended as an active category after the unchanged old list; nothing else changes |
| Transitions.UpdateCategory | contexts/AppContext.tsx:125-135 | same length; categories whose identifier string equals the id are patched, the others are untouched; an unknown id changes nothing; nothing else changes |
| Transitions.UpdateCategoryByIdentifier | contexts/AppContext.tsx:125-135 | updating by a category's identifier patches exactly the entries with that identifier |
| Transitions.SetMonthlyBudget | contexts/AppContext.tsx:137-150 | the month key is added; its record has that month and budget, keeps a previous record's totals and has zero totals otherwise; other months and other fields are unchanged |
| Transitions.SetMonthlyBudgetLastWins | contexts/AppContext.tsx:137-150 | setting a month's budget twice equals setting only the second value |
| Transitions.SetMonthlyBudgetIdempotent | contexts/AppContext.tsx:137-150 | setting the same budget twice equals setting it once |
| Transitions.FilterKeepsIdsUnique | contexts/AppContext.tsx:98 | filtering a list with unique ids keeps the ids unique |
| Transitions.AddFreshKeepsIdsUnique | contexts/AppContext.tsx:84-93 | adding under an id no transaction has keeps ids unique |
| Transitions.UpdateKeepsIds | contexts/AppContext.tsx:102-112 | an update whose patch has no id leaves every transaction's id where it was |
| Transitions.IdsStayUnique | contexts/AppContext.tsx:84-112 | with unique ids beforehand, ids stay unique after adding with a fresh id, after deleting, and after an update that does not change ids |
| Transitions.AddKeepsAmountsPositive | contexts/AppContext.tsx:84-93 | adding a transaction with a positive amount keeps every amount positive |
| Transitions.UpdateKeepsAmountsPositive | contexts/AppContext.tsx:102-112 | an update that leaves the amount out or sets a positive one keeps every amount positive |
| Transitions.ApplyKeepsAmountsPositive | app/add-transaction.tsx:26-29 | if all amounts are positive and an add or update passed the screens' check that the amount is positive, all amounts stay positive after any one operation |
| Transitions.RunKeepsAmountsPositive | components/add-transaction.tsx:19-22 | the same over any sequence of checked operations, logout included |
| AppContext.Persisted | contexts/AppContext.tsx:62-66 | the state is written in full while a profile exists; otherwise the stored document is left as it was |
| AppContext.AppStore.constructor | contexts/AppContext.tsx:23-28 | a new store starts from no profile, no transactions, the default categories and no budgets, with the load pending |
| AppContext.AppStore.SetAppState | contexts/AppContext.tsx:62-66 | the state is replaced and the save guard runs, keeping storage in step with any profile-bearing state |
| AppContext.AppStore.FinishLoad | contexts/AppContext.tsx:56-60 | the corrected start-up load: a stored document replaces the state wholesale (without one the state is kept) in the same step that reports loading over |
| AppContext.AppStore.QueryResolved | contexts/AppContext.tsx:165 | as written, loading is reported over as soon as the read resolves, while the state, the storage and the pending document are unchanged |
| AppContext.AppStore.ApplyStoredDocument | contexts/AppContext.tsx:56-60 | the effect on the delivered document: a stored document replaces the state wholesale and is saved back if it holds a profile; without one nothing changes |
| AppContext.AppStore.UpdateUserConfig | contexts/AppContext.tsx:68-75 | the new state is the profile update of the old one, and it is stored |
| AppContext.AppStore.CompleteOnboarding | contexts/AppContext.tsx:77-82 | the new state has onboarding completed, and it is stored |
| AppContext.AppStore.AddTransaction | contexts/AppContext.tsx:84-93 | the new state is the old one with the transaction prepended; the save guard runs |
| AppContext.AppStore.DeleteTransaction | contexts/AppContext.tsx:95-100 | the new state is the old one without the id's transactions; the save guard runs |
| AppContext.AppStore.UpdateTransaction | contexts/AppContext.tsx:102-112 | the new state is the old one with the id's transactions patched; the save guard runs |
| AppContext.AppStore.AddCategory | contexts/AppContext.tsx:114-123 | the new state is the old one with the category appended; the save guard runs |
| AppContext.AppStore.UpdateCategory | contexts/AppContext.tsx:125-135 | the new state is the old one with the id's categories patched; the save guard runs |
| AppContext.AppStore.SetMonthlyBudget | contexts/AppContext.tsx:137-150 | the new state is the old one with the month's budget set; the save guard runs |
| AppContext.AppStore.RemoveStored | contexts/AppContext.tsx:153 | as written, the first step of logout: the stored document is gone while the state, profile included, is unchanged, so a profile in the state is no longer backed by storage |
| AppContext.AppStore.ResetState | contexts/AppContext.tsx:154-159 | as written, the second step of logout: the state becomes the initial state and the save guard leaves storage as it was |
| AppContext.AppStore.Logout | contexts/AppContext.tsx:152-160 | the corrected one-step logout: storage is emptied and the state returns to the initial state together |
| AppContext.LogoutThenRestart | contexts/AppContext.tsx:152-160 | after a logout, a restart that loads from storage finds nothing and starts from the initial state |
| MonthData.MonthOf | contexts/AppContext.tsx:197 | the month key is the first seven characters of the date, or the whole date if it is shorter |
| MonthData.MonthTransactions | contexts/AppContext.tsx:196-199 | exactly the transactions the first seven characters of whose date (the whole date, if shorter) equal the month key are selected |
| MonthData.MonthTransactionsIdempotent | contexts/AppContext.tsx:196-199 | selecting a month twice equals selecting it once |
| MonthData.SumAmounts | contexts/AppContext.tsx:203 | the sum of non-negative amounts is non-negative; the sum of a non-empty list of positive amounts is positive |
| MonthData.SumAmountsConcat | contexts/AppContext.tsx:203 | the sum of amounts is additive over concatenation |
| MonthData.TotalOf | contexts/AppContext.tsx:201-207 | a kind's total over non-negative amounts is non-negative, and it is 0 when no transaction has that kind |
| MonthData.TotalsPartition | contexts/AppContext.tsx:201-207 | expense total plus income total equals the total of all amounts |
| MonthData.BudgetFor | contexts/AppContext.tsx:209 | the month's recorded budget when present and non-zero, 2000 otherwise; never 0 |
| MonthData.SharePercentage | contexts/AppContext.tsx:222 | the percentage is finite exactly when the month's expenses are non-zero or the category total is 0; it is plus or minus infinity exactly when the month's expenses are 0 and the total is positive or negative |
| MonthData.SharePercentageScales | contexts/AppContext.tsx:222 | with non-zero month expenses, the percentage times the month's expenses equals the category total times 100 |
| MonthData.SharePercentageFallback | contexts/AppContext.tsx:222 | a zero total gives 0 percent; a positive total never gives 0; a positive total in a month with no expenses gives infinity |
| MonthData.SharePercentageBounded | contexts/AppContext.tsx:222 | a positive total no larger than the month's expenses gives a finite percentage in (0, 100] |
| MonthData.CategoryTotal | contexts/AppContext.tsx:214-217 | a category's month expense total over non-negative amounts is non-negative |
| MonthData.CategoryTotalPositive | contexts/AppContext.tsx:214-218 | while all amounts are positive, a category's total is positive exactly when some expense is booked to it, so it gets an entry exactly then |
| MonthData.Breakdown | contexts/AppContext.tsx:213-226 | every entry is a category of the list with its month expense total and percentage, and that total is positive; every category with positive expenses has its entry |
| MonthData.BreakdownInOrder | contexts/AppContext.tsx:213-226 | the breakdown has exactly one entry per category with a positive total, in the order of the category list, and each entry is that category's total and percentage |
| MonthData.BreakdownConcat | contexts/AppContext.tsx:213-226 | the breakdown of two category lists back to back is their two breakdowns back to back |
| MonthData.BreakdownSingle | contexts/AppContext.tsx:213-226 | one category gives its entry if its total is positive, and nothing otherwise |
| MonthData.BreakdownOfIdle | contexts/AppContext.tsx:218 | categories without expenses in the month produce no entries |
| MonthData.Insert | contexts/AppContext.tsx:228 | insertion adds exactly one element |
| MonthData.InsertKeepsSorted | contexts/AppContext.tsx:228 | inserting into a list sorted by decreasing total keeps it sorted |
| MonthData.InsertAt | contexts/AppContext.tsx:228 | the new entry goes after every entry with a total at least as large, before the rest |
| MonthData.SortByTotal | contexts/AppContext.tsx:228 | the result is a permutation of the input, sorted by decreasing total |
| MonthData.InsertIsStable | contexts/AppContext.tsx:228 | inserting into a sorted list keeps the order of the entries of every total, and puts the new entry after those of equal total |
| MonthData.SortByTotalIsStable | contexts/AppContext.tsx:228 | sorting keeps the relative order of entries with equal totals |
| MonthData.SortByTotalExtend | contexts/AppContext.tsx:228 | sorting one more element is inserting it into the sorted prefix |
| MonthData.ShiftSmaller | contexts/AppContext.tsx:228 | the shifting loop moves the entries below the new one, and only those, one place right, and leaves a gap behind the entries at least as large |
| MonthData.PlacedIsInserted | contexts/AppContext.tsx:228 | a sorted prefix with its smaller tail moved one right and the new entry in the gap is the functional insertion |
| MonthData.InsertInPlace | contexts/AppContext.tsx:228 | one in-place insertion step turns a sorted array prefix into the prefix with the next element inserted |
| MonthData.SortByTotalInPlace | contexts/AppContext.tsx:228 | the array ends up holding the sorted permutation of its old contents |
| MonthData.Summary | contexts/AppContext.tsx:192-244 | the month's transactions; the total of its expenses and the total of its income, which together make the total of its amounts; the month's budget; remaining equals budget minus expenses; a breakdown that is a permutation of the per-category entries, sorted by decreasing total |
| MonthData.SummaryBreakdownOrder | contexts/AppContext.tsx:213-228 | in the returned breakdown, entries with equal totals are in category-list order |
| MonthData.UseMonthData | contexts/AppContext.tsx:192-244 | the summary computed with the in-place sort equals the specified summary |
| MonthData.SumFilterMonotone | contexts/AppContext.tsx:214-217 | with non-negative amounts, a narrower filter never sums to more |
| MonthData.PercentagesBounded | contexts/AppContext.tsx:213-228 | while all amounts are positive, every breakdown percentage is finite and lies in (0, 100] |
| MonthData.MarchMonth | contexts/AppContext.tsx:196-199 | on a three-transaction example (two in March, one in February), the two March transactions are selected, in order |
| MonthData.MarchTotals | contexts/AppContext.tsx:201-207 | on that example, the March transactions hold 50 of expenses and 1000 of income |
| MonthData.MarchCategoryTotals | contexts/AppContext.tsx:214-217 | on that example, food holds the 50 of March expenses and the other category none |
| MonthData.MarchBreakdown | contexts/AppContext.tsx:213-226 | on that example, with a food and an other category, the breakdown is one food entry: 50, which is 100 percent |
| MonthData.MarchScenario | contexts/AppContext.tsx:192-244 | on that example with a March budget of 500, the summary is 50 spent, 1000 earned, 450 remaining, all on food |
| RootLayout.PhaseOf | app/_layout.tsx:82-94 | the phase is signed out exactly without a profile, and onboarded exactly with a profile whose onboarding is completed |
| RootLayout.Redirect | app/_layout.tsx:71-95 | nothing while loading; otherwise a redirect happens exactly when the route is outside the profile phase's group (modal screens exempt once onboarded), and it goes to that phase's home screen |
| RootLayout.HomeInGroup | app/_layout.tsx:82-94 | each phase's home screen is in its own group, and the three groups are pairwise distinct |
| RootLayout.RedirectSettles | app/_layout.tsx:71-95 | on the screen a redirect chose, the rule asks for no further redirect |
| RootLayout.WrongGroupRedirected | app/_layout.tsx:82-94 | once loading is over, a non-modal route outside the phase's group is always sent to the phase's home screen |
| RootLayout.PhaseAfter | contexts/AppContext.tsx:68-160 | only logout returns to the signed-out phase; a profile update always leaves it; completing onboarding always reaches the tabs phase; data operations keep the phase |
| RootLayout.ProfileKept | contexts/AppContext.tsx:68-150 | every operation but logout keeps an existing profile |
| RootLayout.ProfileKeptUntilLogout | contexts/AppContext.tsx:68-150 | a run of operations without a logout keeps an existing profile |
| RootLayout.SignedInUntilLogout | app/_layout.tsx:82-85 | once a profile exists, no sequence of operations without a logout leads back to the welcome screen |
| RootLayout.ForwardQuery | app/_layout.tsx:34-36 | the forwarded query holds exactly the present connection-id and error parameters with their values, connection id first |
| RootLayout.HandleDeepLink | app/_layout.tsx:26-39 | a push to the bank-connection screen happens exactly when a connection id or an error is present and that screen is not already shown; its query is exactly the present parameters |
| RootLayout.OnUrlEvent | app/_layout.tsx:42-46 | only links starting with the application's scheme are handled |
| RootLayout.OnInitialUrl | app/_layout.tsx:49-53 | no launch link gives no push; a launch link is handled like a link event |
| RootLayout.ForwardSettles | app/_layout.tsx:32 | while the pathname is the bank-connection screen the link was forwarded to, the same link is not forwarded again |
| RootLayout.LaunchPushes | app/_layout.tsx:49-58 | over a run of pathnames, the launch-link effect pushes at most once per run, always to the bank-connection screen, and never without a launch link |
| RootLayout.LaunchLinkReforwarded | app/_layout.tsx:49-58 | a launch link with a connection id, over the pathnames other, bank connection, other, is pushed twice |
| RootLayout.LaunchPushesOnce | app/_layout.tsx:49-53 | handling the launch link only on the first run pushes at most once, pushes whatever that first run pushes, and is a prefix of the pushes as written |
| RootLayout.StartUpAsWritten | contexts/AppContext.tsx:56-60 | with the load in two steps, the redirect that runs once loading is over but before the document is applied sees no profile, so any route outside the auth group is sent to the welcome screen, whatever was stored; the second redirect sees the stored profile |
| RootLayout.ReturningUserWelcomed | app/_layout.tsx:71-95 | an onboarded returning user on the tabs is sent to the welcome screen by the redirect between the two steps, and is left alone by the redirect after them |
| RootLayout.StartUp | app/_layout.tsx:71-95 | with the load in one step, the only redirect once loading is over sees the stored state, and a stored profile is never sent to the welcome screen |
| RootLayout.SignOutAsWritten | contexts/AppContext.tsx:152-160 | with the logout in two steps and the route replaced by the welcome screen before the removal resolves, the redirect on the welcome screen sees the old profile and sends a signed-in user away (an onboarded one to the tabs), and after the reset that screen is sent back to the welcome screen |
| RootLayout.SignOut | app/_layout.tsx:71-95 | with the logout in one step, the welcome screen that the settings screen replaces the route with is kept |
| RootLayout.Splash.constructor | app/_layout.tsx:22 | the splash flag starts lowered, with no hide issued |
| RootLayout.Splash.OnLoadingChanged | app/_layout.tsx:61-68 | the flag is raised once loading is over and is never lowered; at most one hide is ever issued |
| RootLayout.ReplaySplash | app/_layout.tsx:61-68 | over any run of loading values, the screen is hidden exactly once if loading ever finished, and never otherwise |

## Left out

- Device storage I/O, the query and mutation wrappers and JSON (de)serialisation (contexts/AppContext.tsx:30-54). Storage is a value holding the stored document. The start-up read is the document present when the store is created. Writes are taken to land in the order they are issued. A read or parse failure is the same as no document.
- AppContext.AppStore.Logout: resets the state in the same step that removes the stored document, which is the corrected behaviour; the code as written keeps the old state until the removal resolves, which `AppContext.AppStore.RemoveStored` then `AppContext.AppStore.ResetState` model (see "## Findings"). Saves issued between the two steps are not modelled.
- Removing the stored document at logout is taken to succeed. If the removal fails, the source never resets the state; the model has no failure path.
- A patch field explicitly set to `undefined` erases that field in a shallow merge. Patches here are records of optional fields, so a field is either replaced or kept.
- Floating-point arithmetic and `parseFloat`: amounts are real numbers, so rounding and NaN are not modelled. The screens' amount check (`!isNaN(amount) && amount > 0`) is only its `amount > 0` half.
- Clock-made transaction ids and ISO dates are inputs. Two adds in the same millisecond sharing an id are not modelled; `Transitions.IdsStayUnique` assumes the fresh id.
- AppContext.AppStore.FinishLoad: applies the stored document in the same step that clears loading, which is the corrected behaviour; the two steps of the code as written are `AppContext.AppStore.QueryResolved` then `AppContext.AppStore.ApplyStoredDocument` (see "## Findings").
- The store load is not one of the operations in `Transitions.StoreOp`. Runs of operations start from a given state.
- The parsing of links (`Linking.parse`), query values that are arrays, percent-encoding in `URLSearchParams.toString()`, the router's `replace`/`push` and the splash-screen calls: parsed parameters are a map of strings given as input, and the push is returned as a path plus its ordered query pairs.
- The redirect and link-event effects re-run on React dependency changes; the model evaluates them on given inputs and does not model the effect scheduler or the listener subscription's removal. The launch-link effect's re-runs over a run of pathnames are modelled by `RootLayout.LaunchPushes`.
- Screens, modals, the onboarding flow, authentication, bank and payment clients are not part of this model.

## Findings

| source | as written | input that shows it | evidently intended | confidence | as-written member | corrected member |
|---|---|---|---|---|---|---|
| app/_layout.tsx:49-58 | the launch link is read with `getInitialURL` inside the effect whose dependencies include `pathname`, so every navigation handles the same launch link again | the application opened by `budgetcopain://callback?connection_id=42`, then a pathname other than `/bank-connection`, e.g. `/`, then `/bank-connection`, then `/` again: two pushes to the bank-connection screen | the launch link is handled once, when the root layout first runs | medium; not executed | RootLayout.LaunchPushes, RootLayout.LaunchLinkReforwarded | RootLayout.LaunchPushesOnce |
| contexts/AppContext.tsx:56-60 | `isLoading` is the query's flag, which clears in the render that delivers the document, while the document is applied by an effect afterwards; the root layout's effects run first and redirect on the bootstrap state | a stored profile that finished onboarding, with the app starting on the tabs: the first redirect once loading is over sends it to `/(auth)/welcome` | loading is reported over only once the stored document is in the state, so the redirect never sees the bootstrap state in place of a stored profile | medium; not executed | AppContext.AppStore.QueryResolved, AppContext.AppStore.ApplyStoredDocument, RootLayout.StartUpAsWritten, RootLayout.ReturningUserWelcomed | AppContext.AppStore.FinishLoad, RootLayout.StartUp |
| contexts/AppContext.tsx:152-160 | `logout` awaits the removal of the stored document before resetting the state, and the settings screen calls it without waiting before replacing the route with `/(auth)/welcome` (app/(tabs)/settings.tsx:34-35), so the redirect on the welcome screen still sees the profile | an onboarded user signing out from the settings screen: the welcome screen is redirected to `/(tabs)`, which is redirected back to `/(auth)/welcome` once the state is reset | the state is reset by the time the route shows the welcome screen, so the welcome screen is kept | medium; not executed | AppContext.AppStore.RemoveStored, AppContext.AppStore.ResetState, RootLayout.SignOutAsWritten | AppContext.AppStore.Logout, RootLayout.SignOut |

=== FILE: app_context.dfy ===
/**
 * The application store: one mutable application state that every operation
 * replaces, the document kept in device storage, and the one-time load of
 * that document at start-up.
 *
 * Storage is modelled as the document currently stored under the key
 * `@budgetcopain_data` (`None` when the key is absent); writes are taken to
 * land in the order they are issued.
 */
module AppContext {
  import opened Types
  import opened Transitions

  /**
   * The save-guard effect that runs after every change of state: the whole
   * state is written only while a profile exists, otherwise storage is left alone.
   */
  function Persisted(stored: Option<AppState>, s: AppState): (r: Option<AppState>)
    ensures s.userConfig.Some? ==> r == Some(s)
    ensures s.userConfig.None? ==> r == stored
  {
    if s.userConfig.Some? then Some(s) else stored
  }

  class AppStore {
    /** The in-memory state, the source of truth for the session. */
    var state: AppState
    /** The document under the storage key, if any. */
    var storage: Option<AppState>
    /** The document the start-up read returned (read once, when the store is created). */
    var pendingLoad: Option<AppState>
    /** True until the start-up read has been applied. */
    var isLoading: bool

    /** Whenever a profile exists, storage holds exactly the in-memory state. */
    ghost predicate Valid()
      reads this
    {
      state.userConfig.Some? ==> storage == Some(state)
    }

    /** A fresh store on a device whose storage holds `stored`: bootstrap state, load pending. */
    constructor (stored: Option<AppState>)
      ensures Valid()
      ensures state == Bootstrap() && storage == stored && pendingLoad == stored && isLoading
    {
      state := Bootstrap();
      storage := stored;
      pendingLoad := stored;
      isLoading := true;
    }

    /** `setAppState(next)` followed by the save-guard effect. */
    method SetAppState(next: AppState)
      requires Valid()
      modifies this
      ensures Valid()
      ensures state == next && storage == Persisted(old(storage), next)
      ensures pendingLoad == old(pendingLoad) && isLoading == old(isLoading)
    {
      state := next;
      storage := Persisted(storage, next);
    }

    /**
     * The start-up read resolves, as written: `isLoading` clears in the render
     * that delivers the document, but the state is still the one held before.
     */
    method QueryResolved()
      requires Valid() && isLoading
      modifies this
      ensures Valid() && !isLoading
      ensures state == old(state) && storage == old(storage) && pendingLoad == old(pendingLoad)
    {
      isLoading := false;
    }

    /** The provider's effect on the delivered document: a stored document replaces the state wholesale. */
    method ApplyStoredDocument()
      requires Valid()
      modifies this
      ensures Valid() && isLoading == old(isLoading) && pendingLoad == old(pendingLoad)
      ensures state == old(pendingLoad).GetOr(old(state))
      ensures old(pendingLoad).Some? ==> storage == Persisted(old(storage), old(pendingLoad).value)
      ensures old(pendingLoad).None? ==> storage == old(storage)
    {
      if pendingLoad.Some? {
        SetAppState(pendingLoad.value);
      }
    }

    /**
     * The start-up read resolves in one step: a stored document replaces the
     * state wholesale (none keeps it) by the time loading is reported over.
     */
    method FinishLoad()
      requires Valid() && isLoading
      modifies this
      ensures Valid() && !isLoading
      ensures state == old(pendingLoad).GetOr(old(state))
      ensures old(pendingLoad).Some? ==> storage == Persisted(old(storage), old(pendingLoad).value)
      ensures old(pendingLoad).None? ==> storage == old(storage)
      ensures pendingLoad == old(pendingLoad)
    {
      if pendingLoad.Some? {
        SetAppState(pendingLoad.value);
      }
      isLoading := false;
    }

    method UpdateUserConfig(config: ConfigPatch)
      requires Valid()
      modifies this
      ensures Valid()
      ensures state == Transitions.UpdateUserConfig(old(state), config)
      ensures storage == Some(state)
      ensures pendingLoad == old(pendingLoad) && isLoading == old(isLoading)
    {
      SetAppState(Transitions.UpdateUserConfig(state, config));
    }

    method CompleteOnboarding(config: ConfigPatch)
      requires Valid()
      modifies this
      ensures Valid()
      ensures state == Transitions.CompleteOnboarding(old(state), config)
      ensures state.userConfig.Some? && state.userConfig.value.onboardingCompleted
      ensures storage == Some(state)
      ensures pendingLoad == old(pendingLoad) && isLoading == old(isLoading)
    {
      SetAppState(Transitions.CompleteOnboarding(state, config));
    }

    method AddTransaction(transaction: TransactionDraft, newId: string)
      requires Valid()
      modifies this
      ensures Valid()
      ensures state == Transitions.AddTransaction(old(state), transaction, newId)
      ensures storage == Persisted(old(storage), state)
      ensures pendingLoad == old(pendingLoad) && isLoading == old(isLoading)
    {
      SetAppState(Transitions.AddTransaction(state, transaction, newId));
    }

    method DeleteTransaction(id: string)
      requires Valid()
      modifies this
      ensures Valid()
      ensures state == Transitions.DeleteTransaction(old(state), id)
      ensures storage == Persisted(old(storage), state)
      ensures pendingLoad == old(pendingLoad) && isLoading == old(isLoading)
    {
      SetAppState(Transitions.DeleteTransaction(state, id));
    }

    method UpdateTransaction(id: string, updates: TransactionPatch)
      requires Valid()
      modifies this
      ensures Valid()
      ensures state == Transitions.UpdateTransaction(old(state), id, updates)
      ensures storage == Persisted(old(storage), state)
      ensures pendingLoad == old(pendingLoad) && isLoading == old(isLoading)
    {
      SetAppState(Transitions.UpdateTransaction(state, id, updates));
    }

    method AddCategory(category: CategoryDraft)
      requires Valid()
      modifies this
      ensures Valid()
      ensures state == Transitions.AddCategory(old(state), category)
      ensures storage == Persisted(old(storage), state)
      ensures pendingLoad == old(pendingLoad) && isLoading == old(isLoading)
    {
      SetAppState(Transitions.AddCategory(state, category));
    }

    method UpdateCategory(id: string, updates: CategoryPatch)
      requires Valid()
      modifies this
      ensures Valid()
      ensures state == Transitions.UpdateCategory(old(state), id, updates)
      ensures storage == Persisted(old(storage), state)
      ensures pendingLoad == old(pendingLoad) && isLoading == old(isLoading)
    {
      SetAppState(Transitions.UpdateCategory(state, id, updates));
    }

    method SetMonthlyBudget(month: string, budget: real)
      requires Valid()
      modifies this
      ensures Valid()
      ensures state == Transitions.SetMonthlyBudget(old(state), month, budget)
      ensures storage == Persisted(old(storage), state)
      ensures pendingLoad == old(pendingLoad) && isLoading == old(isLoading)
    {
      SetAppState(Transitions.SetMonthlyBudget(state, month, budget));
    }

    /**
     * Logout as written, first step: the stored document is removed while the
     * state, profile included, is kept until the removal resolves.
     */
    method RemoveStored()
      modifies this
      ensures storage == None && state == old(state)
      ensures pendingLoad == old(pendingLoad) && isLoading == old(isLoading)
      ensures state.userConfig.Some? ==> !Valid()
    {
      storage := None;
    }

    /** Logout as written, second step: the state is reset to the bootstrap state, which the save guard does not write. */
    method ResetState()
      modifies this
      ensures Valid()
      ensures state == Bootstrap() && storage == old(storage)
      ensures pendingLoad == old(pendingLoad) && isLoading == old(isLoading)
    {
      state := Bootstrap();
      storage := Persisted(storage, state);
    }

    /**
     * Logout in one step: the stored document is removed and the state reset
     * to the bootstrap state (which the save guard does not write) together.
     */
    method Logout()
      requires Valid()
      modifies this
      ensures Valid()
      ensures state == Bootstrap() && storage == None
      ensures pendingLoad == old(pendingLoad) && isLoading == old(isLoading)
    {
      storage := None;
      state := Bootstrap();
      // the save guard sees no profile and writes nothing
      storage := Persisted(storage, state);
    }
  }

  /** After logout, restarting the application and loading from storage yields the bootstrap state. */
  method LogoutThenRestart(store: AppStore) returns (restarted: AppStore)
    requires store.Valid()
    modifies store
    ensures restarted.Valid() && !restarted.isLoading
    ensures restarted.state == Bootstrap() && restarted.storage == None
  {
    store.Logout();
    restarted := new AppStore(store.storage);
    restarted.FinishLoad();
  }
}

=== FILE: default_categories.dfy ===
/**
 * The ten built-in categories seeded into a fresh application state, with
 * the palette colour each one takes from the theme's category colours.
 */
module DefaultCategories {
  import opened Types

  /** The theme colour of each built-in category. */
  function CategoryColor(id: CategoryId): (col: string)
    ensures |col| == 7 && col[0] == '#'
  {
    match id
    case Alimentation => "#EF4444"
    case Transport => "#3B82F6"
    case Logement => "#8B5CF6"
    case Loisirs => "#EC4899"
    case Sante => "#10B981"
    case Shopping => "#F59E0B"
    case Voyage => "#14B8A6"
    case Education => "#6366F1"
    case Services => "#8B5CF6"
    case Autres => "#64748B"
  }

  /** A seed entry: active, coloured from the theme. */
  function Seed(id: CategoryId, name: string, icon: string): (c: Category)
    ensures c.id == id && c.isActive && c.color == CategoryColor(id)
  {
    Category(id, name, icon, CategoryColor(id), true)
  }

  /**
   * The seed list: one active category per identifier, in the enumeration's
   * order, each coloured from the theme.
   */
  function Defaults(): (cs: seq<Category>)
    ensures |cs| == 10
    ensures forall i :: 0 <= i < |cs| ==> cs[i].id == AllCategoryIds()[i]
    ensures forall i, j :: 0 <= i < j < |cs| ==> cs[i].id != cs[j].id
    ensures forall c :: c in cs ==> c.isActive && c.color == CategoryColor(c.id)
    ensures cs[0].id == Alimentation && cs[9].id == Autres
  {
    [ Seed(Alimentation, "Alimentation", "🍕"),
      Seed(Transport, "Transport", "🚗"),
      Seed(Logement, "Logement", "🏠"),
      Seed(Loisirs, "Loisirs", "🎮"),
      Seed(Sante, "Santé", "💊"),
      Seed(Shopping, "Shopping", "🛍️"),
      Seed(Voyage, "Voyage", "✈️"),
      Seed(Education, "Éducation", "📚"),
      Seed(Services, "Services", "💼"),
      Seed(Autres, "Autres", "📦") ]
  }

  /** Every category identifier occurs in the seed list exactly once. */
  lemma {:induction false} DefaultsCoverEveryId(id: CategoryId)
    ensures exists i :: 0 <= i < |Defaults()| && Defaults()[i].id == id
    ensures forall i, j :: 0 <= i < |Defaults()| && 0 <= j < |Defaults()| && Defaults()[i].id == id && Defaults()[j].id == id ==> i == j
  {
    var cs := Defaults();
    EveryCategoryIdListed(id);
    var i :| 0 <= i < |AllCategoryIds()| && AllCategoryIds()[i] == id;
    assert cs[i].id == id;
  }
}

=== FILE: layout.dfy ===
/**
 * The root navigator: the three-phase redirect rule (signed out, onboarding,
 * onboarded), the forwarding of bank-connection deep links, and the flag that
 * hides the splash screen once.
 *
 * The router, `Linking` and the splash-screen module are foreign APIs: the
 * current route segments, the pathname and the parsed query parameters are
 * inputs, and `router.replace` / `router.push` / `hideAsync` are outputs.
 */
module RootLayout {
  import opened Types
  import opened Transitions
  import AppContext

  const WelcomeRoute := "/(auth)/welcome"
  const GoalRoute := "/(onboarding)/goal"
  const TabsRoute := "/(tabs)"
  const BankConnectionRoute := "/bank-connection"
  const DeepLinkScheme := "budgetcopain://"

  // ---------------------------------------------------------------------
  // Redirect rule

  /** Where the user stands, judged from the stored profile alone. */
  datatype Phase = SignedOut | Onboarding | Onboarded

  function PhaseOf(cfg: Option<UserConfig>): (p: Phase)
    ensures p == SignedOut <==> cfg.None?
    ensures p == Onboarded <==> cfg.Some? && cfg.value.onboardingCompleted
  {
    if cfg.None? then SignedOut
    else if !cfg.value.onboardingCompleted then Onboarding
    else Onboarded
  }

  /** The route group each phase belongs in. */
  function GroupOf(p: Phase): string {
    match p
    case SignedOut => "(auth)"
    case Onboarding => "(onboarding)"
    case Onboarded => "(tabs)"
  }

  /** The screen each phase is sent to. */
  function HomeOf(p: Phase): string {
    match p
    case SignedOut => WelcomeRoute
    case Onboarding => GoalRoute
    case Onboarded => TabsRoute
  }

  /** `segments[0] === group`; an empty segment list has no first segment. */
  predicate InGroup(segments: seq<string>, group: string) {
    |segments| > 0 && segments[0] == group
  }

  /** The modal screens that may sit on top of the tabs without being redirected away. */
  predicate IsModalRoute(pathname: string) {
    pathname == "/subscription" || pathname == "/add-transaction" || pathname == BankConnectionRoute
  }

  /**
   * The navigation effect: nothing while loading; otherwise the single
   * `router.replace` target, if the current route is outside the phase's group
   * (modal screens excepted once onboarded).
   */
  function Redirect(isLoading: bool, cfg: Option<UserConfig>, segments: seq<string>, pathname: string): (r: Option<string>)
    ensures isLoading ==> r == None
    ensures r.Some? <==>
      !isLoading && !InGroup(segments, GroupOf(PhaseOf(cfg)))
      && !(PhaseOf(cfg) == Onboarded && IsModalRoute(pathname))
    ensures r.Some? ==> r.value == HomeOf(PhaseOf(cfg))
  {
    if isLoading then None
    else
      var inAuthGroup := InGroup(segments, "(auth)");
      var inOnboardingGroup := InGroup(segments, "(onboarding)");
      var inTabsGroup := InGroup(segments, "(tabs)");
      if cfg.None? then
        (if !inAuthGroup then Some(WelcomeRoute) else None)
      else if !cfg.value.onboardingCompleted then
        (if !inOnboardingGroup then Some(GoalRoute) else None)
      else
        (if !inTabsGroup && !IsModalRoute(pathname) then Some(TabsRoute) else None)
  }

  /** The segments the router reports once it shows one of the three home screens. */
  function SegmentsOf(route: string): seq<string> {
    if route == WelcomeRoute then ["(auth)", "welcome"]
    else if route == GoalRoute then ["(onboarding)", "goal"]
    else if route == TabsRoute then ["(tabs)"]
    else []
  }

  /** Each home screen lies in its phase's group, and the three groups are distinct. */
  lemma HomeInGroup(p: Phase, q: Phase)
    ensures InGroup(SegmentsOf(HomeOf(p)), GroupOf(p))
    ensures GroupOf(p) == GroupOf(q) <==> p == q
  {
  }

  /** Redirecting is settled by one step: on the screen it chose, the rule asks for nothing more. */
  lemma {:induction false} RedirectSettles(cfg: Option<UserConfig>, segments: seq<string>, pathname: string)
    ensures
      var r := Redirect(false, cfg, segments, pathname);
      r.Some? ==> Redirect(false, cfg, SegmentsOf(r.value), r.value) == None
  {
    HomeInGroup(PhaseOf(cfg), PhaseOf(cfg));
  }

  /** A route in the wrong group is always redirected, whatever the phase, once loading has finished. */
  lemma WrongGroupRedirected(cfg: Option<UserConfig>, segments: seq<string>, pathname: string)
    requires !IsModalRoute(pathname)
    requires !InGroup(segments, GroupOf(PhaseOf(cfg)))
    ensures Redirect(false, cfg, segments, pathname) == Some(HomeOf(PhaseOf(cfg)))
  {
  }

  // ---------------------------------------------------------------------
  // How store operations move the phase

  /** Only logout signs out; completing onboarding always lands in the tabs phase; data operations keep the phase. */
  lemma PhaseAfter(s: AppState, op: StoreOp)
    ensures op.LogoutOp? ==> PhaseOf(Apply(s, op).userConfig) == SignedOut
    ensures op.UpdateUserConfigOp? ==> PhaseOf(Apply(s, op).userConfig) != SignedOut
    ensures op.CompleteOnboardingOp? ==> PhaseOf(Apply(s, op).userConfig) == Onboarded
    ensures !op.LogoutOp? && !op.UpdateUserConfigOp? && !op.CompleteOnboardingOp? ==>
      PhaseOf(Apply(s, op).userConfig) == PhaseOf(s.userConfig)
  {
  }

  /** Every operation but logout keeps a profile that exists. */
  lemma ProfileKept(s: AppState, op: StoreOp)
    requires s.userConfig.Some? && !op.LogoutOp?
    ensures Apply(s, op).userConfig.Some?
  {
    match op
    case UpdateUserConfigOp(p) =>
    case CompleteOnboardingOp(p) =>
    case _ => PhaseAfter(s, op);
  }

  /** A run without a logout keeps a profile that exists. */
  lemma {:induction false} ProfileKeptUntilLogout(s: AppState, ops: seq<StoreOp>)
    requires s.userConfig.Some?
    requires forall i :: 0 <= i < |ops| ==> !ops[i].LogoutOp?
    ensures Run(s, ops).userConfig.Some?
    decreases |ops|
  {
    if ops != [] {
      var next := Apply(s, ops[0]);
      ProfileKept(s, ops[0]);
      assert forall i :: 0 <= i < |ops[1..]| ==> ops[1..][i] == ops[i + 1];
      ProfileKeptUntilLogout(next, ops[1..]);
      assert Run(s, ops) == Run(next, ops[1..]);
    }
  }

  /** Once a profile exists, no sequence of operations without a logout sends the user back to the welcome screen. */
  lemma SignedInUntilLogout(s: AppState, ops: seq<StoreOp>)
    requires PhaseOf(s.userConfig) != SignedOut
    requires forall i :: 0 <= i < |ops| ==> !ops[i].LogoutOp?
    ensures PhaseOf(Run(s, ops).userConfig) != SignedOut
  {
    ProfileKeptUntilLogout(s, ops);
  }

  // ---------------------------------------------------------------------
  // Start-up: what the redirect rule sees once loading is reported over

  /**
   * Start-up as written: the redirect runs once in the render where loading
   * clears, with the bootstrap state, and again after the stored document is
   * applied. A returning user outside the auth group is first sent to the
   * welcome screen.
   */
  method StartUpAsWritten(stored: Option<AppState>, segments: seq<string>, pathname: string)
    returns (between: Option<string>, loaded: Option<string>)
    ensures between == Redirect(false, None, segments, pathname)
    ensures !InGroup(segments, "(auth)") ==> between == Some(WelcomeRoute)
    ensures loaded == Redirect(false, (if stored.Some? then stored.value else Bootstrap()).userConfig, segments, pathname)
  {
    var store := new AppContext.AppStore(stored);
    store.QueryResolved();
    between := Redirect(store.isLoading, store.state.userConfig, segments, pathname);
    store.ApplyStoredDocument();
    loaded := Redirect(store.isLoading, store.state.userConfig, segments, pathname);
  }

  /** A returning user who finished onboarding, on the tabs, is sent to the welcome screen between the two steps. */
  lemma ReturningUserWelcomed(doc: AppState, pathname: string)
    requires doc.userConfig.Some? && doc.userConfig.value.onboardingCompleted
    ensures Redirect(false, Bootstrap().userConfig, ["(tabs)"], pathname) == Some(WelcomeRoute)
    ensures Redirect(false, doc.userConfig, ["(tabs)"], pathname) == None
  {
  }

  /**
   * Start-up with the load applied in one step: the only redirect once loading
   * is over sees the stored profile, so a returning user is never sent to the
   * welcome screen.
   */
  method StartUp(stored: Option<AppState>, segments: seq<string>, pathname: string) returns (r: Option<string>)
    ensures r == Redirect(false, (if stored.Some? then stored.value else Bootstrap()).userConfig, segments, pathname)
    ensures stored.Some? && stored.value.userConfig.Some? ==> r != Some(WelcomeRoute)
  {
    var store := new AppContext.AppStore(stored);
    store.FinishLoad();
    r := Redirect(store.isLoading, store.state.userConfig, segments, pathname);
  }

  // ---------------------------------------------------------------------
  // Sign-out: the settings screen logs out and replaces the route with the
  // welcome screen without waiting for the logout to finish

  /**
   * Sign-out as written: the redirect on the welcome screen runs while the
   * removal is pending and the profile is still in the state, so a signed-in
   * user is sent back to their home screen; once the state is reset, that
   * screen is redirected to the welcome screen again.
   */
  method SignOutAsWritten(store: AppContext.AppStore) returns (onWelcome: Option<string>, after: Option<string>)
    modifies store
    ensures store.Valid() && store.state == Bootstrap() && store.storage == None
    ensures onWelcome == Redirect(false, old(store.state.userConfig), SegmentsOf(WelcomeRoute), WelcomeRoute)
    ensures old(store.state.userConfig).Some? ==>
      onWelcome.Some? && onWelcome != Some(WelcomeRoute) && after == Some(WelcomeRoute)
    ensures PhaseOf(old(store.state.userConfig)) == Onboarded ==> onWelcome == Some(TabsRoute)
  {
    store.RemoveStored();
    onWelcome := Redirect(false, store.state.userConfig, SegmentsOf(WelcomeRoute), WelcomeRoute);
    store.ResetState();
    var route := if onWelcome.Some? then onWelcome.value else WelcomeRoute;
    after := Redirect(false, store.state.userConfig, SegmentsOf(route), route);
  }

  /** Sign-out with the logout in one step: the welcome screen it replaces the route with is kept. */
  method SignOut(store: AppContext.AppStore) returns (onWelcome: Option<string>)
    requires store.Valid()
    modifies store
    ensures store.Valid() && store.state == Bootstrap() && store.storage == None
    ensures onWelcome == None
  {
    store.Logout();
    onWelcome := Redirect(false, store.state.userConfig, SegmentsOf(WelcomeRoute), WelcomeRoute);
  }

  // ---------------------------------------------------------------------
  // Deep-link forwarding

  /** A query parameter is truthy: present and not the empty string. */
  predicate Present(params: map<string, string>, key: string) {
    key in params && params[key] != ""
  }

  /** The `URLSearchParams` built for the forward: `connection_id` first, then `error`, each only when present. */
  function ForwardQuery(params: map<string, string>): (q: seq<(string, string)>)
    ensures forall k, v :: (k, v) in q <==>
      (k == "connection_id" || k == "error") && Present(params, k) && v == params[k]
    ensures |q| <= 2
    ensures |q| == 2 ==> q[0].0 == "connection_id" && q[1].0 == "error"
  {
    (if Present(params, "connection_id") then [("connection_id", params["connection_id"])] else [])
    + (if Present(params, "error") then [("error", params["error"])] else [])
  }

  /** A `router.push` to a path with a query. */
  datatype Push = Push(path: string, query: seq<(string, string)>)

  /**
   * `handleDeepLink`: forward to the bank-connection screen when the link
   * carries a connection id or an error, unless that screen is already shown.
   */
  function HandleDeepLink(params: map<string, string>, pathname: string): (r: Option<Push>)
    ensures r.Some? <==>
      (Present(params, "connection_id") || Present(params, "error")) && pathname != BankConnectionRoute
    ensures r.Some? ==> r.value.path == BankConnectionRoute && r.value.query != []
    ensures r.Some? ==> forall k, v :: (k, v) in r.value.query <==>
      (k == "connection_id" || k == "error") && Present(params, k) && v == params[k]
  {
    if (Present(params, "connection_id") || Present(params, "error")) && pathname != BankConnectionRoute then
      var q := ForwardQuery(params);
      assert Present(params, "connection_id") ==> ("connection_id", params["connection_id"]) in q;
      Some(Push(BankConnectionRoute, q))
    else None
  }

  /** A `url` event: only links of the application's own scheme are handled. */
  function OnUrlEvent(url: string, params: map<string, string>, pathname: string): (r: Option<Push>)
    ensures r.Some? ==> DeepLinkScheme <= url
    ensures DeepLinkScheme <= url ==> r == HandleDeepLink(params, pathname)
  {
    if DeepLinkScheme <= url then HandleDeepLink(params, pathname) else None
  }

  /** The launch link, if the application was opened by one: handled like a `url` event. */
  function OnInitialUrl(url: Option<string>, params: map<string, string>, pathname: string): (r: Option<Push>)
    ensures url.None? ==> r == None
    ensures url.Some? ==> r == OnUrlEvent(url.value, params, pathname)
  {
    if url.Some? && DeepLinkScheme <= url.value then HandleDeepLink(params, pathname) else None
  }

  /**
   * A forwarded link lands on the bank-connection screen, where the same link
   * is not forwarded again for as long as that screen is shown.
   */
  lemma ForwardSettles(url: string, params: map<string, string>, pathname: string)
    ensures
      var r := OnUrlEvent(url, params, pathname);
      r.Some? ==> OnUrlEvent(url, params, r.value.path) == None
  {
  }

  /**
   * The launch-link pushes over a run of pathnames, as written: the effect that
   * reads the launch link re-runs on every pathname change, and each run
   * handles the launch link afresh.
   */
  function LaunchPushes(url: Option<string>, params: map<string, string>, paths: seq<string>): (r: seq<Push>)
    ensures |r| <= |paths|
    ensures url.None? ==> r == []
    ensures forall i :: 0 <= i < |r| ==> r[i].path == BankConnectionRoute
  {
    if paths == [] then []
    else
      var here := OnInitialUrl(url, params, paths[0]);
      (if here.Some? then [here.value] else []) + LaunchPushes(url, params, paths[1..])
  }

  /**
   * Leaving the bank-connection screen for any other route pushes the launch
   * link again: opening the application by a link, visiting the screen and
   * coming back gives two pushes.
   */
  lemma LaunchLinkReforwarded(url: string, params: map<string, string>, pathname: string)
    requires DeepLinkScheme <= url && Present(params, "connection_id")
    requires pathname != BankConnectionRoute
    ensures |LaunchPushes(Some(url), params, [pathname, BankConnectionRoute, pathname])| == 2
  {
    var paths := [pathname, BankConnectionRoute, pathname];
    var push := OnInitialUrl(Some(url), params, pathname);
    assert push.Some?;
    assert OnInitialUrl(Some(url), params, BankConnectionRoute) == None;
    assert [pathname][1..] == [];
    assert LaunchPushes(Some(url), params, [pathname]) == [push.value];
    assert paths[1..][1..] == [pathname];
    assert LaunchPushes(Some(url), params, paths[1..]) == [push.value];
    assert paths[1..] == [BankConnectionRoute, pathname];
    assert LaunchPushes(Some(url), params, paths) == [push.value, push.value];
  }

  /**
   * The launch link handled once, when the effect first runs; later pathname
   * changes leave it alone. It pushes what the first run as written pushes,
   * and never more than once.
   */
  function LaunchPushesOnce(url: Option<string>, params: map<string, string>, paths: seq<string>): (r: seq<Push>)
    ensures |r| <= 1
    ensures r <= LaunchPushes(url, params, paths)
    ensures paths != [] && OnInitialUrl(url, params, paths[0]).Some? ==> r != []
  {
    if paths == [] then []
    else
      var here := OnInitialUrl(url, params, paths[0]);
      if here.Some? then [here.value] else []
  }

  // ---------------------------------------------------------------------
  // Splash screen

  /** The `splashHidden` ref, with a count of `hideAsync` calls issued. */
  class Splash {
    var hidden: bool
    var hideCalls: nat

    /** The screen has been hidden exactly when one hide call has been issued. */
    ghost predicate Valid()
      reads this
    {
      hideCalls == if hidden then 1 else 0
    }

    constructor ()
      ensures Valid() && !hidden && hideCalls == 0
    {
      hidden := false;
      hideCalls := 0;
    }

    /** The effect run when `isLoading` changes: hide on the first time loading is over. */
    method OnLoadingChanged(isLoading: bool)
      requires Valid()
      modifies this
      ensures Valid() && hideCalls <= 1
      ensures hidden == (old(hidden) || !isLoading)
      ensures old(hidden) ==> hideCalls == old(hideCalls)
    {
      if !isLoading && !hidden {
        hideCalls := hideCalls + 1;
        hidden := true;
      }
    }
  }

  /**
   * Replays a run of `isLoading` values through the effect: the splash screen
   * is hidden once if loading ever finished, and never otherwise.
   */
  method ReplaySplash(loading: seq<bool>) returns (hidden: bool, hideCalls: nat)
    ensures hidden <==> false in loading
    ensures hideCalls == if false in loading then 1 else 0
  {
    var splash := new Splash();
    var i := 0;
    while i < |loading|
      invariant 0 <= i <= |loading|
      invariant splash.Valid()
      invariant splash.hidden <==> false in loading[..i]
    {
      assert loading[..i + 1] == loading[..i] + [loading[i]];
      splash.OnLoadingChanged(loading[i]);
      i := i + 1;
    }
    assert loading[..i] == loading;
    hidden, hideCalls := splash.hidden, splash.hideCalls;
  }
}

=== FILE: month_data.dfy ===
/**
 * The month aggregator: a read-only projection of the application state for
 * one month key (`YYYY-MM`) onto the month's transactions, its expense and
 * income totals, its budget and what remains of it, and a per-category
 * expense breakdown sorted by total, largest first.
 */
module MonthData {
  import opened Types
  import opened Seqs
  import Transitions

  /** The budget shown for a month that has no ceiling, or a ceiling of 0. */
  const DefaultBudget: real := 2000.0

  /** `date.substring(0, 7)`: the first seven characters, or the whole date when it is shorter. */
  function MonthOf(date: string): (m: string)
    ensures |m| == if |date| < 7 then |date| else 7
    ensures m <= date
  {
    if |date| < 7 then date else date[..7]
  }

  /** The filter predicate of the month's transactions. */
  function InMonth(month: string): Transaction -> bool {
    (t: Transaction) => MonthOf(t.date) == month
  }

  /** The transactions whose date starts with the month key, in list order. */
  function MonthTransactions(ts: seq<Transaction>, month: string): (r: seq<Transaction>)
    ensures forall t :: t in r <==> t in ts && MonthOf(t.date) == month
    ensures |r| <= |ts|
  {
    Filter(ts, InMonth(month))
  }

  /** Selecting a month's transactions again changes nothing. */
  lemma MonthTransactionsIdempotent(ts: seq<Transaction>, month: string)
    ensures MonthTransactions(MonthTransactions(ts, month), month) == MonthTransactions(ts, month)
  {
    FilterIdempotent(ts, InMonth(month));
  }

  /** `reduce((sum, t) => sum + t.amount, 0)`: a left fold from 0. */
  function SumAmounts(ts: seq<Transaction>): (r: real)
    ensures (forall t :: t in ts ==> t.amount >= 0.0) ==> r >= 0.0
    ensures (forall t :: t in ts ==> t.amount > 0.0) && ts != [] ==> r > 0.0
  {
    if ts == [] then 0.0 else SumAmounts(ts[..|ts| - 1]) + ts[|ts| - 1].amount
  }

  /** The sum of a concatenation is the sum of the parts. */
  lemma {:induction false} SumAmountsConcat(a: seq<Transaction>, b: seq<Transaction>)
    ensures SumAmounts(a + b) == SumAmounts(a) + SumAmounts(b)
    decreases |b|
  {
    if b == [] {
      assert a + b == a;
    } else {
      assert (a + b)[..|a + b| - 1] == a + b[..|b| - 1];
      SumAmountsConcat(a, b[..|b| - 1]);
    }
  }

  /** The filter predicate selecting one transaction type. */
  function OfKind(k: TransactionType): Transaction -> bool {
    (t: Transaction) => t.kind == k
  }

  /** The sum of the amounts of the transactions of type `k`. */
  function TotalOf(ts: seq<Transaction>, k: TransactionType): (r: real)
    ensures (forall t :: t in ts ==> t.amount >= 0.0) ==> r >= 0.0
    ensures (forall t :: t in ts ==> t.kind != k) ==> r == 0.0
  {
    FilterEmpty(ts, OfKind(k));
    SumAmounts(Filter(ts, OfKind(k)))
  }

  /** Expenses and income split the total exactly: each transaction is counted once, on its own side. */
  lemma {:induction false} TotalsPartition(ts: seq<Transaction>)
    ensures TotalOf(ts, Expense) + TotalOf(ts, Income) == SumAmounts(ts)
    decreases |ts|
  {
    if ts != [] {
      var n := |ts| - 1;
      var init := ts[..n];
      assert ts == init + [ts[n]];
      TotalsPartition(init);
      FilterConcat(init, [ts[n]], OfKind(Expense));
      FilterConcat(init, [ts[n]], OfKind(Income));
      SumAmountsConcat(Filter(init, OfKind(Expense)), Filter([ts[n]], OfKind(Expense)));
      SumAmountsConcat(Filter(init, OfKind(Income)), Filter([ts[n]], OfKind(Income)));
      assert Filter([ts[n]], OfKind(Expense)) == (if ts[n].kind == Expense then [ts[n]] else []);
      assert Filter([ts[n]], OfKind(Income)) == (if ts[n].kind == Income then [ts[n]] else []);
      assert SumAmounts([ts[n]]) == ts[n].amount by {
        assert [ts[n]][..0] == [];
      }
    }
  }

  /** `monthlyBudgets[month]?.totalBudget || 2000`. */
  function BudgetFor(budgets: map<string, MonthlyBudget>, month: string): (b: real)
    ensures b != 0.0
    ensures month in budgets && budgets[month].totalBudget != 0.0 ==> b == budgets[month].totalBudget
    ensures month !in budgets || budgets[month].totalBudget == 0.0 ==> b == DefaultBudget
  {
    if month in budgets && budgets[month].totalBudget != 0.0 then budgets[month].totalBudget else DefaultBudget
  }

  /** A share of the month's expenses as JavaScript computes it: a number or an infinity. */
  datatype Percentage = Finite(value: real) | PositiveInfinity | NegativeInfinity

  /**
   * `(total / totalExpenses) * 100 || 0`: a division by zero gives an infinity
   * of the sign of `total`, or NaN when `total` is 0 too, and `|| 0` turns NaN
   * (and 0) into 0.
   */
  function SharePercentage(total: real, totalExpenses: real): (r: Percentage)
    ensures r.Finite? <==> totalExpenses != 0.0 || total == 0.0
    ensures r == PositiveInfinity <==> totalExpenses == 0.0 && total > 0.0
    ensures r == NegativeInfinity <==> totalExpenses == 0.0 && total < 0.0
  {
    if totalExpenses != 0.0 then Finite(total / totalExpenses * 100.0)
    else if total > 0.0 then PositiveInfinity
    else if total < 0.0 then NegativeInfinity
    else Finite(0.0)
  }

  /** With a non-zero month total, the percentage is the category's share of it, scaled to 100. */
  lemma SharePercentageScales(total: real, totalExpenses: real)
    requires totalExpenses != 0.0
    ensures SharePercentage(total, totalExpenses).Finite?
    ensures SharePercentage(total, totalExpenses).value * totalExpenses == total * 100.0
  {
  }

  /** The fallback only ever yields 0 for a zero total, so it never masks a positive category total. */
  lemma SharePercentageFallback(total: real, totalExpenses: real)
    ensures total == 0.0 ==> SharePercentage(total, totalExpenses) == Finite(0.0)
    ensures total > 0.0 ==> SharePercentage(total, totalExpenses) != Finite(0.0)
    ensures total > 0.0 && totalExpenses == 0.0 ==> SharePercentage(total, totalExpenses) == PositiveInfinity
  {
  }

  /** With positive totals and a category total no larger than the month's, the share lies in (0, 100]. */
  lemma SharePercentageBounded(total: real, totalExpenses: real)
    requires 0.0 < total <= totalExpenses
    ensures SharePercentage(total, totalExpenses).Finite?
    ensures 0.0 < SharePercentage(total, totalExpenses).value <= 100.0
  {
    var q := total / totalExpenses;
    assert q * totalExpenses == total;
    assert 0.0 < q <= 1.0;
  }

  /** The filter predicate of one category's expenses. */
  function ExpenseIn(c: CategoryId): Transaction -> bool {
    (t: Transaction) => t.categoryId == c && t.kind == Expense
  }

  /** The sum of the month's expenses booked to category `c`. */
  function CategoryTotal(ts: seq<Transaction>, c: CategoryId): (r: real)
    ensures (forall t :: t in ts ==> t.amount >= 0.0) ==> r >= 0.0
  {
    SumAmounts(Filter(ts, ExpenseIn(c)))
  }

  /** While all amounts are positive, a category has a positive total exactly when some expense is booked to it. */
  lemma CategoryTotalPositive(ts: seq<Transaction>, c: CategoryId)
    requires forall t :: t in ts ==> t.amount > 0.0
    ensures CategoryTotal(ts, c) > 0.0 <==> exists t :: t in ts && t.categoryId == c && t.kind == Expense
  {
    FilterEmpty(ts, ExpenseIn(c));
  }

  /** One entry of the breakdown. */
  datatype CategoryShare = CategoryShare(category: Category, total: real, percentage: Percentage)

  /** The entry a category gets in the breakdown. */
  function ShareOf(c: Category, ts: seq<Transaction>, totalExpenses: real): CategoryShare {
    var total := CategoryTotal(ts, c.id);
    CategoryShare(c, total, SharePercentage(total, totalExpenses))
  }

  /** The categories that get an entry: those with a positive expense total in `ts`. */
  function Spending(ts: seq<Transaction>): Category -> bool {
    (c: Category) => CategoryTotal(ts, c.id) > 0.0
  }

  /**
   * The `reduce` over the categories, before sorting: one entry per category
   * (active or not) whose month expense total is positive, in category order.
   */
  function Breakdown(cats: seq<Category>, ts: seq<Transaction>, totalExpenses: real): (r: seq<CategoryShare>)
    ensures |r| <= |cats|
    ensures forall e :: e in r ==> e.category in cats && e == ShareOf(e.category, ts, totalExpenses) && e.total > 0.0
    ensures forall c :: c in cats && CategoryTotal(ts, c.id) > 0.0 ==> ShareOf(c, ts, totalExpenses) in r
  {
    if cats == [] then []
    else
      var e := ShareOf(cats[0], ts, totalExpenses);
      var rest := Breakdown(cats[1..], ts, totalExpenses);
      assert forall c :: c in cats ==> c == cats[0] || c in cats[1..];
      (if e.total > 0.0 then [e] else []) + rest
  }

  /** The breakdown of two category lists back to back is the two breakdowns back to back. */
  lemma {:induction false} BreakdownConcat(a: seq<Category>, b: seq<Category>, ts: seq<Transaction>, totalExpenses: real)
    ensures Breakdown(a + b, ts, totalExpenses) == Breakdown(a, ts, totalExpenses) + Breakdown(b, ts, totalExpenses)
  {
    if a == [] {
      assert a + b == b;
    } else {
      var e := ShareOf(a[0], ts, totalExpenses);
      var head := if e.total > 0.0 then [e] else [];
      assert (a + b)[0] == a[0] && (a + b)[1..] == a[1..] + b;
      assert Breakdown(a + b, ts, totalExpenses) == head + Breakdown(a[1..] + b, ts, totalExpenses);
      BreakdownConcat(a[1..], b, ts, totalExpenses);
      ConcatAssociative(head, Breakdown(a[1..], ts, totalExpenses), Breakdown(b, ts, totalExpenses));
    }
  }

  /** `r` holds the entries of the categories `cs`, one each, in the same order. */
  predicate EntriesOf(r: seq<CategoryShare>, cs: seq<Category>, ts: seq<Transaction>, totalExpenses: real) {
    |r| == |cs| && forall i :: 0 <= i < |r| ==> r[i] == ShareOf(cs[i], ts, totalExpenses)
  }

  /** Prepending one category's entry to the entries of a list. */
  lemma EntriesOfCons(c: Category, r: seq<CategoryShare>, cs: seq<Category>, ts: seq<Transaction>, totalExpenses: real)
    requires EntriesOf(r, cs, ts, totalExpenses)
    ensures EntriesOf([ShareOf(c, ts, totalExpenses)] + r, [c] + cs, ts, totalExpenses)
  {
    var r' := [ShareOf(c, ts, totalExpenses)] + r;
    var cs' := [c] + cs;
    forall i | 0 <= i < |r'| ensures r'[i] == ShareOf(cs'[i], ts, totalExpenses) {
      if i > 0 {
        assert r'[i] == r[i - 1] && cs'[i] == cs[i - 1];
      }
    }
  }

  /** One step of the `reduce`: the first category's entry, if it has one, ahead of the rest. */
  lemma BreakdownCons(cats: seq<Category>, ts: seq<Transaction>, totalExpenses: real)
    requires cats != []
    ensures Breakdown(cats, ts, totalExpenses)
         == (if Spending(ts)(cats[0]) then [ShareOf(cats[0], ts, totalExpenses)] else [])
            + Breakdown(cats[1..], ts, totalExpenses)
  {
  }

  /** Exactly one entry per spending category, in the order of the category list. */
  lemma {:induction false} BreakdownInOrder(cats: seq<Category>, ts: seq<Transaction>, totalExpenses: real)
    ensures EntriesOf(Breakdown(cats, ts, totalExpenses), Filter(cats, Spending(ts)), ts, totalExpenses)
  {
    if cats != [] {
      BreakdownInOrder(cats[1..], ts, totalExpenses);
      var rest := Breakdown(cats[1..], ts, totalExpenses);
      var frest := Filter(cats[1..], Spending(ts));
      BreakdownCons(cats, ts, totalExpenses);
      FilterCons(cats, Spending(ts));
      if Spending(ts)(cats[0]) {
        EntriesOfCons(cats[0], rest, frest, ts, totalExpenses);
      } else {
        assert [] + rest == rest && [] + frest == frest;
      }
    }
  }

  /** A single category yields one entry if it has expenses in the month, and none otherwise. */
  lemma BreakdownSingle(c: Category, ts: seq<Transaction>, totalExpenses: real)
    ensures Breakdown([c], ts, totalExpenses)
         == if CategoryTotal(ts, c.id) > 0.0 then [ShareOf(c, ts, totalExpenses)] else []
  {
    assert [c][1..] == [];
  }

  /** Categories without expenses contribute no entry. */
  lemma {:induction false} BreakdownOfIdle(cats: seq<Category>, ts: seq<Transaction>, totalExpenses: real)
    requires forall c :: c in cats ==> CategoryTotal(ts, c.id) == 0.0
    ensures Breakdown(cats, ts, totalExpenses) == []
  {
    if cats != [] {
      assert cats[0] in cats;
      BreakdownOfIdle(cats[1..], ts, totalExpenses);
    }
  }

  // ---------------------------------------------------------------------
  // Sorting the breakdown: `byCategory.sort((a, b) => b.total - a.total)`

  /** Non-increasing by total. */
  predicate SortedByTotal(s: seq<CategoryShare>) {
    forall i, j :: 0 <= i < j < |s| ==> s[i].total >= s[j].total
  }

  /** Inserts `x` after every leading entry whose total is at least its own (so equal totals keep their order). */
  function Insert(s: seq<CategoryShare>, x: CategoryShare): (r: seq<CategoryShare>)
    ensures |r| == |s| + 1
    ensures multiset(r) == multiset(s) + multiset{x}
  {
    if s == [] then [x]
    else if s[0].total >= x.total then
      assert s == [s[0]] + s[1..];
      [s[0]] + Insert(s[1..], x)
    else [x] + s
  }

  /** Inserting into a sorted list keeps it sorted. */
  lemma {:induction false} InsertKeepsSorted(s: seq<CategoryShare>, x: CategoryShare)
    requires SortedByTotal(s)
    ensures SortedByTotal(Insert(s, x))
  {
    if s != [] && s[0].total >= x.total {
      var rest := Insert(s[1..], x);
      InsertKeepsSorted(s[1..], x);
      var r := [s[0]] + rest;
      forall i, j | 0 <= i < j < |r| ensures r[i].total >= r[j].total {
        if i == 0 {
          assert r[j] in multiset(rest);
          assert r[j] in multiset(s[1..]) + multiset{x};
          if r[j] != x {
            assert r[j] in s[1..];
          }
        } else {
          assert r[i] == rest[i - 1] && r[j] == rest[j - 1];
        }
      }
    }
  }

  /** Where `Insert` puts `x` in a sorted list: after the `k` entries whose total is at least its own. */
  lemma {:induction false} InsertAt(s: seq<CategoryShare>, x: CategoryShare, k: nat)
    requires k <= |s|
    requires forall m :: 0 <= m < k ==> s[m].total >= x.total
    requires forall m :: k <= m < |s| ==> s[m].total < x.total
    ensures Insert(s, x) == s[..k] + [x] + s[k..]
  {
    if k == 0 {
      assert s[..0] + [x] + s[0..] == [x] + s;
    } else {
      var t := s[1..];
      assert forall m :: 0 <= m < k - 1 ==> t[m].total >= x.total by {
        assert forall m :: 0 <= m < k - 1 ==> t[m] == s[m + 1];
      }
      assert forall m :: k - 1 <= m < |t| ==> t[m].total < x.total by {
        assert forall m :: k - 1 <= m < |t| ==> t[m] == s[m + 1];
      }
      InsertAt(t, x, k - 1);
      InsertBehindAt(s, x, k);
    }
  }

  /** The inductive step of `InsertAt`: an entry ahead of `x` stays at the front. */
  lemma InsertBehindAt(s: seq<CategoryShare>, x: CategoryShare, k: nat)
    requires 0 < k <= |s| && s[0].total >= x.total
    requires Insert(s[1..], x) == s[1..][..k - 1] + [x] + s[1..][k - 1..]
    ensures Insert(s, x) == s[..k] + [x] + s[k..]
  {
    var front := s[1..][..k - 1];
    var back := s[1..][k - 1..];
    assert Insert(s, x) == [s[0]] + Insert(s[1..], x);
    assert s[..k] == [s[0]] + front;
    assert s[k..] == back;
    ConcatAssociative([s[0]], front + [x], back);
    ConcatAssociative([s[0]], front, [x]);
  }

  /** A stable insertion sort by total, largest first. */
  function SortByTotal(s: seq<CategoryShare>): (r: seq<CategoryShare>)
    ensures |r| == |s|
    ensures multiset(r) == multiset(s)
    ensures SortedByTotal(r)
  {
    if s == [] then []
    else
      assert s == s[..|s| - 1] + [s[|s| - 1]];
      var sortedInit := SortByTotal(s[..|s| - 1]);
      InsertKeepsSorted(sortedInit, s[|s| - 1]);
      Insert(sortedInit, s[|s| - 1])
  }

  /** The entries with total `v`. */
  function WithTotal(v: real): CategoryShare -> bool {
    (e: CategoryShare) => e.total == v
  }

  /** Filtering a single entry by its total. */
  lemma FilterSingleTotal(x: CategoryShare, v: real)
    ensures Filter([x], WithTotal(v)) == if x.total == v then [x] else []
  {
    assert [x][1..] == [];
  }

  /** The tail of a sorted list is sorted. */
  lemma SortedTail(s: seq<CategoryShare>)
    requires s != [] && SortedByTotal(s)
    ensures SortedByTotal(s[1..])
  {
    forall i, j | 0 <= i < j < |s[1..]| ensures s[1..][i].total >= s[1..][j].total {
      assert s[1..][i] == s[i + 1] && s[1..][j] == s[j + 1];
    }
  }

  /** A sorted list headed by an entry below `v` has no entry with total `v`. */
  lemma NoneWithTotal(s: seq<CategoryShare>, v: real)
    requires s != [] && SortedByTotal(s) && s[0].total < v
    ensures Filter(s, WithTotal(v)) == []
  {
    forall e | e in s ensures !WithTotal(v)(e) {
      var k :| 0 <= k < |s| && s[k] == e;
      assert k == 0 || s[0].total >= s[k].total;
    }
    FilterEmpty(s, WithTotal(v));
  }

  /** Inserting ahead of a sorted list whose entries are all smaller. */
  lemma InsertAheadIsStable(s: seq<CategoryShare>, x: CategoryShare, v: real)
    requires s != [] && SortedByTotal(s) && s[0].total < x.total
    ensures Filter(Insert(s, x), WithTotal(v)) == Filter(s, WithTotal(v)) + (if x.total == v then [x] else [])
  {
    var p := WithTotal(v);
    assert Insert(s, x) == [x] + s;
    FilterConcat([x], s, p);
    FilterSingleTotal(x, v);
    if x.total == v {
      NoneWithTotal(s, v);
      assert Filter(s, p) + [x] == [x] + Filter(s, p);
    } else {
      assert [] + Filter(s, p) == Filter(s, p) + [];
    }
  }

  /** Inserting behind the head: stability of the tail's insertion carries over. */
  lemma InsertBehindIsStable(s: seq<CategoryShare>, x: CategoryShare, v: real)
    requires s != [] && s[0].total >= x.total
    requires Filter(Insert(s[1..], x), WithTotal(v)) == Filter(s[1..], WithTotal(v)) + (if x.total == v then [x] else [])
    ensures Filter(Insert(s, x), WithTotal(v)) == Filter(s, WithTotal(v)) + (if x.total == v then [x] else [])
  {
    var p := WithTotal(v);
    var r := Insert(s, x);
    var head := if p(s[0]) then [s[0]] else [];
    var rest := Insert(s[1..], x);
    assert r == [s[0]] + rest;
    assert r[1..] == rest;
    var tailKept := Filter(s[1..], p);
    var added := if x.total == v then [x] else [];
    assert Filter(r, p) == head + (tailKept + added);
    assert Filter(s, p) == head + tailKept;
    ConcatAssociative(head, tailKept, added);
  }

  /** Insertion into a sorted list puts `x` after every entry with the same total. */
  lemma {:induction false} InsertIsStable(s: seq<CategoryShare>, x: CategoryShare, v: real)
    requires SortedByTotal(s)
    ensures Filter(Insert(s, x), WithTotal(v)) == Filter(s, WithTotal(v)) + (if x.total == v then [x] else [])
  {
    var p := WithTotal(v);
    if s == [] {
      assert Insert(s, x) == [x];
      FilterSingleTotal(x, v);
    } else if s[0].total >= x.total {
      SortedTail(s);
      InsertIsStable(s[1..], x, v);
      InsertBehindIsStable(s, x, v);
    } else {
      InsertAheadIsStable(s, x, v);
    }
  }

  /**
   * The sort is stable: for every total, the entries with that total come out
   * in the order they went in.
   */
  lemma {:induction false} SortByTotalIsStable(s: seq<CategoryShare>, v: real)
    ensures Filter(SortByTotal(s), WithTotal(v)) == Filter(s, WithTotal(v))
    decreases |s|
  {
    if s != [] {
      var init := s[..|s| - 1];
      var last := s[|s| - 1];
      assert s == init + [last];
      assert SortByTotal(s) == Insert(SortByTotal(init), last);
      SortByTotalIsStable(init, v);
      InsertIsStable(SortByTotal(init), last, v);
      FilterConcat(init, [last], WithTotal(v));
      FilterSingleTotal(last, v);
    }
  }

  /** Sorting one more element is inserting it into the sorted prefix. */
  lemma SortByTotalExtend(s: seq<CategoryShare>, i: nat)
    requires i < |s|
    ensures SortByTotal(s[..i + 1]) == Insert(SortByTotal(s[..i]), s[i])
  {
    var prefix := s[..i + 1];
    assert prefix[..i] == s[..i] && prefix[i] == s[i];
  }

  /**
   * The shifting loop of one insertion step: moves the entries of `a[..i]` whose
   * total is below that of `a[i]` one place right and returns the gap they leave.
   */
  method ShiftSmaller(a: array<CategoryShare>, i: nat) returns (j: nat)
    requires i < a.Length
    modifies a
    ensures j <= i
    ensures forall m :: 0 <= m < a.Length && (m < j || i < m) ==> a[m] == old(a[m])
    ensures forall m :: j < m <= i ==> a[m] == old(a[m - 1])
    ensures forall m :: j <= m < i ==> old(a[m]).total < old(a[i]).total
    ensures j > 0 ==> old(a[j - 1]).total >= old(a[i]).total
  {
    ghost var before := a[..];
    var x := a[i];
    j := i;
    while j > 0 && a[j - 1].total < x.total
      invariant j <= i
      invariant forall m :: 0 <= m < a.Length && (m < j || i < m) ==> a[m] == before[m]
      invariant forall m :: j < m <= i ==> a[m] == before[m - 1]
      invariant forall m :: j <= m < i ==> before[m].total < x.total
    {
      a[j] := a[j - 1];
      j := j - 1;
    }
  }

  /** One step of the in-place sort: moves `a[i]` into place within the sorted prefix `a[..i]`. */
  method InsertInPlace(a: array<CategoryShare>, i: nat)
    requires i < a.Length
    requires SortedByTotal(a[..i])
    modifies a
    ensures a[..i + 1] == Insert(old(a[..i]), old(a[i]))
    ensures a[i + 1..] == old(a[i + 1..])
  {
    ghost var before := a[..];
    var x := a[i];
    var j := ShiftSmaller(a, i);
    a[j] := x;
    PlacedIsInserted(before, a[..], i, j);
  }

  /**
   * The pure core of one insertion step: `b` is `before` with the entries of
   * `before[j..i]` moved one place right and `before[i]` put at `j`.
   */
  lemma PlacedIsInserted(before: seq<CategoryShare>, b: seq<CategoryShare>, i: nat, j: nat)
    requires |b| == |before| && j <= i < |b|
    requires SortedByTotal(before[..i])
    requires forall m :: 0 <= m < |b| && (m < j || i < m) ==> b[m] == before[m]
    requires b[j] == before[i]
    requires forall m :: j < m <= i ==> b[m] == before[m - 1]
    requires forall m :: j <= m < i ==> before[m].total < before[i].total
    requires j > 0 ==> before[j - 1].total >= before[i].total
    ensures b[..i + 1] == Insert(before[..i], before[i])
    ensures b[i + 1..] == before[i + 1..]
  {
    var sorted := before[..i];
    var x := before[i];
    assert forall m :: 0 <= m < j ==> sorted[m].total >= x.total by {
      if j > 0 {
        assert forall m :: 0 <= m < j ==> sorted[m].total >= sorted[j - 1].total;
      }
    }
    InsertAt(sorted, x, j);
    ShiftedIsInserted(b, sorted, x, i, j);
  }

  /** The array contents after the shift: the sorted prefix with `x` placed at `j`. */
  lemma ShiftedIsInserted(b: seq<CategoryShare>, sorted: seq<CategoryShare>, x: CategoryShare, i: nat, j: nat)
    requires |sorted| == i < |b| && j <= i
    requires forall m :: 0 <= m < j ==> b[m] == sorted[m]
    requires b[j] == x
    requires forall m :: j < m <= i ==> b[m] == sorted[m - 1]
    ensures b[..i + 1] == sorted[..j] + [x] + sorted[j..]
  {
    var expected := sorted[..j] + [x] + sorted[j..];
    forall m | 0 <= m <= i ensures b[m] == expected[m] {
      if m < j {
        assert expected[m] == sorted[m];
      } else if m > j {
        assert expected[m] == sorted[m - 1];
      }
    }
  }

  /** The in-place sort of the freshly built breakdown array. */
  method SortByTotalInPlace(a: array<CategoryShare>)
    modifies a
    ensures a[..] == SortByTotal(old(a[..]))
  {
    ghost var input := a[..];
    var i := 0;
    while i < a.Length
      invariant 0 <= i <= a.Length
      invariant a[..i] == SortByTotal(input[..i])
      invariant a[i..] == input[i..]
    {
      ghost var prefix := a[..i];
      assert SortedByTotal(prefix);
      assert a[i] == input[i] && a[i + 1..] == input[i + 1..] by {
        assert a[i + 1..] == a[i..][1..];
      }
      InsertInPlace(a, i);
      assert a[..i + 1] == Insert(prefix, input[i]);
      SortByTotalExtend(input, i);
      i := i + 1;
    }
    assert input[..a.Length] == input;
  }

  // ---------------------------------------------------------------------
  // The whole projection

  datatype MonthSummary = MonthSummary(
    transactions: seq<Transaction>,
    totalExpenses: real,
    totalIncome: real,
    budget: real,
    remaining: real,
    byCategory: seq<CategoryShare>)

  /** What `useMonthData(month)` returns for state `s`. */
  function Summary(s: AppState, month: string): (r: MonthSummary)
    ensures r.transactions == MonthTransactions(s.transactions, month)
    ensures r.totalExpenses == TotalOf(r.transactions, Expense)
    ensures r.totalIncome == TotalOf(r.transactions, Income)
    ensures r.totalExpenses + r.totalIncome == SumAmounts(r.transactions)
    ensures r.budget == BudgetFor(s.monthlyBudgets, month)
    ensures r.remaining == r.budget - r.totalExpenses
    ensures SortedByTotal(r.byCategory)
    ensures multiset(r.byCategory) == multiset(Breakdown(s.categories, r.transactions, r.totalExpenses))
  {
    var mts := MonthTransactions(s.transactions, month);
    var expenses := TotalOf(mts, Expense);
    var income := TotalOf(mts, Income);
    var budget := BudgetFor(s.monthlyBudgets, month);
    TotalsPartition(mts);
    MonthSummary(mts, expenses, income, budget, budget - expenses,
                 SortByTotal(Breakdown(s.categories, mts, expenses)))
  }

  /**
   * The breakdown is the per-category entries in category order, reordered by
   * decreasing total and nothing else: entries with equal totals keep their
   * category order.
   */
  lemma SummaryBreakdownOrder(s: AppState, month: string)
    ensures var r := Summary(s, month);
      forall v :: Filter(r.byCategory, WithTotal(v)) == Filter(Breakdown(s.categories, r.transactions, r.totalExpenses), WithTotal(v))
  {
    var r := Summary(s, month);
    forall v ensures Filter(r.byCategory, WithTotal(v)) == Filter(Breakdown(s.categories, r.transactions, r.totalExpenses), WithTotal(v)) {
      SortByTotalIsStable(Breakdown(s.categories, r.transactions, r.totalExpenses), v);
    }
  }

  /** `useMonthData`: filters and sums, then builds the breakdown in an array and sorts it in place. */
  method UseMonthData(s: AppState, month: string) returns (r: MonthSummary)
    ensures r == Summary(s, month)
  {
    var mts := MonthTransactions(s.transactions, month);
    var expenses := TotalOf(mts, Expense);
    var income := TotalOf(mts, Income);
    var budget := BudgetFor(s.monthlyBudgets, month);
    var remaining := budget - expenses;
    var shares := Breakdown(s.categories, mts, expenses);
    var byCategory := ToArray(shares);
    SortByTotalInPlace(byCategory);
    r := MonthSummary(mts, expenses, income, budget, remaining, byCategory[..]);
  }

  /** A fresh array holding the entries of `s`. */
  method ToArray(s: seq<CategoryShare>) returns (a: array<CategoryShare>)
    ensures fresh(a) && a[..] == s
  {
    a := new CategoryShare[|s|](i requires 0 <= i < |s| => s[i]);
  }

  // ---------------------------------------------------------------------
  // Properties of the projection

  /** A subset of transactions never sums to more than a superset when no amount is negative. */
  lemma {:induction false} SumFilterMonotone(ts: seq<Transaction>, p: Transaction -> bool, q: Transaction -> bool)
    requires forall t :: t in ts ==> t.amount >= 0.0
    requires forall t :: p(t) ==> q(t)
    ensures SumAmounts(Filter(ts, p)) <= SumAmounts(Filter(ts, q))
    decreases |ts|
  {
    if ts != [] {
      var rest := ts[1..];
      SumFilterMonotone(rest, p, q);
      var hp := if p(ts[0]) then [ts[0]] else [];
      var hq := if q(ts[0]) then [ts[0]] else [];
      SumAmountsConcat(hp, Filter(rest, p));
      SumAmountsConcat(hq, Filter(rest, q));
      assert SumAmounts([ts[0]]) == ts[0].amount by {
        assert [ts[0]][..0] == [];
      }
    }
  }

  /**
   * When every amount is positive (what the screens check before adding or
   * updating), every breakdown entry is a finite share in (0, 100] of the
   * month's expenses.
   */
  lemma PercentagesBounded(s: AppState, month: string)
    requires Transitions.AmountsPositive(s.transactions)
    ensures forall e :: e in Summary(s, month).byCategory ==>
              e.percentage.Finite? && 0.0 < e.percentage.value <= 100.0
  {
    var r := Summary(s, month);
    forall e | e in r.byCategory
      ensures e.percentage.Finite? && 0.0 < e.percentage.value <= 100.0
    {
      assert e in multiset(r.byCategory);
      assert e in Breakdown(s.categories, r.transactions, r.totalExpenses);
      SumFilterMonotone(r.transactions, ExpenseIn(e.category.id), OfKind(Expense));
      SharePercentageBounded(e.total, r.totalExpenses);
    }
  }

  /** A March with one expense, one income, and a February expense that must not count; the March ceiling is 500. */
  function MarchState(): AppState {
    AppState(
      None,
      [ Transaction("1", 50.0, Expense, Alimentation, "2024-03-05", "", Manual),
        Transaction("2", 1000.0, Income, Autres, "2024-03-01", "", Manual),
        Transaction("3", 20.0, Expense, Alimentation, "2024-02-20", "", Manual) ],
      [ Category(Alimentation, "Alimentation", "🍕", "#EF4444", true),
        Category(Autres, "Autres", "📦", "#64748B", true) ],
      map["2024-03" := MonthlyBudget("2024-03", 500.0, 0.0, 0.0)])
  }

  /** The sum of one transaction is its amount. */
  lemma SumAmountsSingle(t: Transaction)
    ensures SumAmounts([t]) == t.amount
  {
    assert [t][..0] == [];
  }

  /** Filtering two elements keeps each that satisfies the predicate, in order. */
  lemma FilterPair<T(!new)>(a: T, b: T, p: T -> bool)
    ensures Filter([a, b], p) == (if p(a) then [a] else []) + (if p(b) then [b] else [])
  {
    assert [a, b][1..] == [b] && [b][1..] == [];
  }

  /** Two dated transactions of which only the first two fall in `month`. */
  lemma MonthOfThree(a: Transaction, b: Transaction, c: Transaction, month: string)
    requires MonthOf(a.date) == month && MonthOf(b.date) == month && MonthOf(c.date) != month
    ensures MonthTransactions([a, b, c], month) == [a, b]
  {
    var ts := [a, b, c];
    assert ts[1..] == [b, c] && ts[1..][1..] == [c] && [c][1..] == [];
    FilterCons(ts, InMonth(month));
    FilterCons(ts[1..], InMonth(month));
    FilterCons(ts[1..][1..], InMonth(month));
  }

  /** Only the two March transactions are selected. */
  lemma MarchMonth()
    ensures MonthTransactions(MarchState().transactions, "2024-03") == MarchState().transactions[..2]
  {
    var ts := MarchState().transactions;
    assert MonthOf(ts[0].date) == "2024-03" && MonthOf(ts[1].date) == "2024-03";
    assert MonthOf(ts[2].date) == "2024-02";
    assert ts == [ts[0], ts[1], ts[2]] && ts[..2] == [ts[0], ts[1]];
    MonthOfThree(ts[0], ts[1], ts[2], "2024-03");
  }

  /** An expense followed by an income: each total is that transaction's amount. */
  lemma TotalsOfPair(e: Transaction, i: Transaction)
    requires e.kind == Expense && i.kind == Income
    ensures TotalOf([e, i], Expense) == e.amount
    ensures TotalOf([e, i], Income) == i.amount
  {
    FilterPair(e, i, OfKind(Expense));
    FilterPair(e, i, OfKind(Income));
    SumAmountsSingle(e);
    SumAmountsSingle(i);
  }

  /** The two March transactions split into 50 of expenses and 1000 of income. */
  lemma MarchTotals()
    ensures TotalOf(MarchState().transactions[..2], Expense) == 50.0
    ensures TotalOf(MarchState().transactions[..2], Income) == 1000.0
  {
    var ts := MarchState().transactions;
    assert ts[..2] == [ts[0], ts[1]];
    TotalsOfPair(ts[0], ts[1]);
  }

  /** An expense followed by an income: the expense's category holds its amount, a category booked nothing holds 0. */
  lemma CategoryTotalsOfPair(e: Transaction, i: Transaction, other: CategoryId)
    requires e.kind == Expense && i.kind == Income && other != e.categoryId
    ensures CategoryTotal([e, i], e.categoryId) == e.amount
    ensures CategoryTotal([e, i], other) == 0.0
  {
    FilterPair(e, i, ExpenseIn(e.categoryId));
    FilterPair(e, i, ExpenseIn(other));
    SumAmountsSingle(e);
  }

  /** Food holds all 50 of the March expenses; the other category holds none. */
  lemma MarchCategoryTotals()
    ensures CategoryTotal(MarchState().transactions[..2], Alimentation) == 50.0
    ensures CategoryTotal(MarchState().transactions[..2], Autres) == 0.0
  {
    var ts := MarchState().transactions;
    assert ts[..2] == [ts[0], ts[1]];
    CategoryTotalsOfPair(ts[0], ts[1], Autres);
  }

  /** Two categories of which only the first has expenses: one entry, the first's. */
  lemma BreakdownFirstOfTwo(c0: Category, c1: Category, ts: seq<Transaction>, totalExpenses: real)
    requires CategoryTotal(ts, c0.id) > 0.0 && CategoryTotal(ts, c1.id) == 0.0
    ensures Breakdown([c0, c1], ts, totalExpenses) == [ShareOf(c0, ts, totalExpenses)]
  {
    var cats := [c0, c1];
    assert cats[1..] == [c1] && [c1][1..] == [];
    BreakdownCons(cats, ts, totalExpenses);
    BreakdownCons(cats[1..], ts, totalExpenses);
  }

  /** Only food has March expenses, and it has all 50 of them. */
  lemma MarchBreakdown()
    ensures Breakdown(MarchState().categories, MarchState().transactions[..2], 50.0)
         == [CategoryShare(MarchState().categories[0], 50.0, Finite(100.0))]
  {
    var mts := MarchState().transactions[..2];
    var cats := MarchState().categories;
    MarchCategoryTotals();
    assert cats == [cats[0], cats[1]];
    BreakdownFirstOfTwo(cats[0], cats[1], mts, 50.0);
  }

  /** The aggregate of that March: 50 spent of 500, 450 left, 1000 earned, all spending on food. */
  lemma MarchScenario()
    ensures Summary(MarchState(), "2024-03").transactions == MarchState().transactions[..2]
    ensures Summary(MarchState(), "2024-03").totalExpenses == 50.0
    ensures Summary(MarchState(), "2024-03").totalIncome == 1000.0
    ensures Summary(MarchState(), "2024-03").budget == 500.0
    ensures Summary(MarchState(), "2024-03").remaining == 450.0
    ensures Summary(MarchState(), "2024-03").byCategory
         == [CategoryShare(MarchState().categories[0], 50.0, Finite(100.0))]
  {
    MarchMonth();
    MarchTotals();
    MarchBreakdown();
    var s := MarchState();
    var r := Summary(s, "2024-03");
    assert s.monthlyBudgets["2024-03"].totalBudget == 500.0;
    var single := [CategoryShare(s.categories[0], 50.0, Finite(100.0))];
    assert r.byCategory == SortByTotal(single);
    assert SortByTotal(single) == single by {
      assert single[..0] == [];
    }
  }
}

=== FILE: seqs.dfy ===
/**
 * `Array.prototype.filter` on immutable sequences, with the facts the store
 * and the month aggregator rely on.
 */
module Seqs {

  /** Concatenation is associative; stated on its own so that callers need not search for it. */
  lemma ConcatAssociative<T>(a: seq<T>, b: seq<T>, c: seq<T>)
    ensures a + (b + c) == (a + b) + c
  {
  }

  /** The elements of `s` that satisfy `p`, in their original order. */
  function Filter<T(!new)>(s: seq<T>, p: T -> bool): (r: seq<T>)
    ensures |r| <= |s|
    ensures forall x :: x in r <==> x in s && p(x)
  {
    if s == [] then []
    else (if p(s[0]) then [s[0]] else []) + Filter(s[1..], p)
  }

  /** One step of `filter`: the first element, if it is kept, ahead of the filtered rest. */
  lemma FilterCons<T(!new)>(s: seq<T>, p: T -> bool)
    requires s != []
    ensures Filter(s, p) == (if p(s[0]) then [s[0]] else []) + Filter(s[1..], p)
  {
  }

  /** Filtering distributes over concatenation, so relative order is kept. */
  lemma {:induction false} FilterConcat<T(!new)>(a: seq<T>, b: seq<T>, p: T -> bool)
    ensures Filter(a + b, p) == Filter(a, p) + Filter(b, p)
  {
    if a == [] {
      assert a + b == b;
    } else {
      assert (a + b)[1..] == a[1..] + b;
      FilterConcat(a[1..], b, p);
    }
  }

  /** Filtering keeps everything exactly when every element satisfies the predicate. */
  lemma {:induction false} FilterKeepsAll<T(!new)>(s: seq<T>, p: T -> bool)
    ensures Filter(s, p) == s <==> forall x :: x in s ==> p(x)
  {
    if s != [] {
      FilterKeepsAll(s[1..], p);
      if !p(s[0]) {
        // the result is too short to be `s`
        assert |Filter(s, p)| == |Filter(s[1..], p)| < |s|;
      }
    }
  }

  /** Filtering keeps nothing exactly when no element satisfies the predicate. */
  lemma FilterEmpty<T(!new)>(s: seq<T>, p: T -> bool)
    ensures Filter(s, p) == [] <==> forall x :: x in s ==> !p(x)
  {
    var r := Filter(s, p);
    if r != [] {
      assert r[0] in r;
    }
  }

  /** Filtering twice by the same predicate is filtering once. */
  lemma FilterIdempotent<T(!new)>(s: seq<T>, p: T -> bool)
    ensures Filter(Filter(s, p), p) == Filter(s, p)
  {
    FilterKeepsAll(Filter(s, p), p);
  }
}

=== FILE: transitions.dfy ===
/**
 * The state transitions of the application store. Each store operation
 * replaces the whole application state by a new value built from the old one;
 * these functions are those new values. The store object that holds the
 * current value and persists it is in module AppContext.
 */
module Transitions {
  import opened Types
  import opened Seqs
  import DefaultCategories

  /** The profile created on first sign-in, before any patch is applied. */
  function DefaultUserConfig(): (c: UserConfig)
    ensures !c.onboardingCompleted && c.subscriptionPlan == Free
    ensures c.firstName == "" && c.email == ""
  {
    UserConfig("", "", Save, Balanced, ManualUsage, "€", 1, Free, false)
  }

  /** The state before anything is loaded, and the state after logout. */
  function Bootstrap(): (s: AppState)
    ensures s.userConfig.None? && s.transactions == [] && s.monthlyBudgets == map[]
    ensures s.categories == DefaultCategories.Defaults() && |s.categories| == 10
    ensures AmountsPositive(s.transactions) && IdsUnique(s.transactions)
  {
    AppState(None, [], DefaultCategories.Defaults(), map[])
  }

  /** Shallow-merges `p` into the profile, creating the default profile first when there is none. */
  function UpdateUserConfig(s: AppState, p: ConfigPatch): (r: AppState)
    ensures r.userConfig.Some?
    ensures r.userConfig.value == MergeConfig(s.userConfig.GetOr(DefaultUserConfig()), p)
    ensures r.transactions == s.transactions && r.categories == s.categories && r.monthlyBudgets == s.monthlyBudgets
  {
    var base := if s.userConfig.Some? then s.userConfig.value else DefaultUserConfig();
    s.(userConfig := Some(MergeConfig(base, p)))
  }

  /** On an empty store the first profile update starts from the documented defaults. */
  lemma FirstUpdateStartsFromDefaults(s: AppState, p: ConfigPatch)
    requires s.userConfig.None?
    ensures var c := UpdateUserConfig(s, p).userConfig.value;
      && (p.firstName.None? ==> c.firstName == "")
      && (p.email.None? ==> c.email == "")
      && (p.mainGoal.None? ==> c.mainGoal == Save)
      && (p.financialComfort.None? ==> c.financialComfort == Balanced)
      && (p.usageMode.None? ==> c.usageMode == ManualUsage)
      && (p.currency.None? ==> c.currency == "€")
      && (p.firstDayOfWeek.None? ==> c.firstDayOfWeek == 1)
      && (p.subscriptionPlan.None? ==> c.subscriptionPlan == Free)
      && (p.onboardingCompleted.None? ==> !c.onboardingCompleted)
  {
  }

  /** `updateUserConfig({ ...p, onboardingCompleted: true })`. */
  function CompleteOnboarding(s: AppState, p: ConfigPatch): (r: AppState)
    ensures r.userConfig.Some? && r.userConfig.value.onboardingCompleted
    ensures r.userConfig.value == UpdateUserConfig(s, p).userConfig.value.(onboardingCompleted := true)
    ensures r.transactions == s.transactions && r.categories == s.categories && r.monthlyBudgets == s.monthlyBudgets
  {
    UpdateUserConfig(s, p.(onboardingCompleted := Some(true)))
  }

  /** The transaction a draft becomes once it is given its identifier. */
  function WithId(d: TransactionDraft, id: string): Transaction {
    Transaction(id, d.amount, d.kind, d.categoryId, d.date, d.note, d.source)
  }

  /** Prepends the new transaction (newest first); `id` stands for the caller's `Date.now()` string. */
  function AddTransaction(s: AppState, d: TransactionDraft, id: string): (r: AppState)
    ensures |r.transactions| == |s.transactions| + 1
    ensures r.transactions[0] == WithId(d, id) && r.transactions[0].id == id
    ensures r.transactions[1..] == s.transactions
    ensures r.userConfig == s.userConfig && r.categories == s.categories && r.monthlyBudgets == s.monthlyBudgets
  {
    s.(transactions := [WithId(d, id)] + s.transactions)
  }

  /** The filter predicate of `deleteTransaction`: the transaction survives when its id differs. */
  function KeepUnless(id: string): Transaction -> bool {
    (t: Transaction) => t.id != id
  }

  /** Removes every transaction carrying `id`, keeping the others in order. */
  function DeleteTransaction(s: AppState, id: string): (r: AppState)
    ensures forall t :: t in r.transactions <==> t in s.transactions && t.id != id
    ensures |r.transactions| <= |s.transactions|
    ensures r.userConfig == s.userConfig && r.categories == s.categories && r.monthlyBudgets == s.monthlyBudgets
  {
    s.(transactions := Filter(s.transactions, KeepUnless(id)))
  }

  /** Deleting an id that no transaction carries changes nothing. */
  lemma DeleteAbsentIsNoOp(s: AppState, id: string)
    requires forall t :: t in s.transactions ==> t.id != id
    ensures DeleteTransaction(s, id) == s
  {
    FilterKeepsAll(s.transactions, KeepUnless(id));
  }

  /** Deletion keeps the surviving transactions in their original relative order. */
  lemma DeleteKeepsOrder(s: AppState, id: string, k: nat)
    requires k <= |s.transactions|
    ensures DeleteTransaction(s, id).transactions
         == DeleteTransaction(s.(transactions := s.transactions[..k]), id).transactions
          + DeleteTransaction(s.(transactions := s.transactions[k..]), id).transactions
  {
    assert s.transactions == s.transactions[..k] + s.transactions[k..];
    FilterConcat(s.transactions[..k], s.transactions[k..], KeepUnless(id));
  }

  /** Adding a transaction under a fresh id and then deleting that id gives back the original state. */
  lemma AddThenDeleteRestores(s: AppState, d: TransactionDraft, id: string)
    requires forall t :: t in s.transactions ==> t.id != id
    ensures DeleteTransaction(AddTransaction(s, d, id), id) == s
  {
    var added := AddTransaction(s, d, id);
    assert added.transactions == [WithId(d, id)] + s.transactions;
    FilterConcat([WithId(d, id)], s.transactions, KeepUnless(id));
    FilterKeepsAll(s.transactions, KeepUnless(id));
    assert Filter([WithId(d, id)], KeepUnless(id)) == [];
  }

  /** Shallow-merges `p` into every transaction whose id is `id`; the list keeps its length and order. */
  function UpdateTransaction(s: AppState, id: string, p: TransactionPatch): (r: AppState)
    ensures |r.transactions| == |s.transactions|
    ensures forall i :: 0 <= i < |s.transactions| && s.transactions[i].id != id ==> r.transactions[i] == s.transactions[i]
    ensures forall i :: 0 <= i < |s.transactions| && s.transactions[i].id == id ==> r.transactions[i] == MergeTransaction(s.transactions[i], p)
    ensures (forall t :: t in s.transactions ==> t.id != id) ==> r == s
    ensures r.userConfig == s.userConfig && r.categories == s.categories && r.monthlyBudgets == s.monthlyBudgets
  {
    var ts := s.transactions;
    var updated := seq(|ts|, i requires 0 <= i < |ts| => if ts[i].id == id then MergeTransaction(ts[i], p) else ts[i]);
    assert (forall t :: t in ts ==> t.id != id) ==> updated == ts;
    s.(transactions := updated)
  }

  /** Applying the same transaction update twice is applying it once, even when the patch renames the id. */
  lemma UpdateTransactionIdempotent(s: AppState, id: string, p: TransactionPatch)
    ensures UpdateTransaction(UpdateTransaction(s, id, p), id, p) == UpdateTransaction(s, id, p)
  {
    var once := UpdateTransaction(s, id, p);
    var twice := UpdateTransaction(once, id, p);
    forall i | 0 <= i < |s.transactions|
      ensures twice.transactions[i] == once.transactions[i]
    {
      MergeTransactionIdempotent(s.transactions[i], p);
    }
  }

  /** Appends the new category, always active. */
  function AddCategory(s: AppState, d: CategoryDraft): (r: AppState)
    ensures |r.categories| == |s.categories| + 1
    ensures r.categories[..|s.categories|] == s.categories
    ensures r.categories[|s.categories|] == Category(d.id, d.name, d.icon, d.color, true)
    ensures r.categories[|s.categories|].isActive
    ensures r.userConfig == s.userConfig && r.transactions == s.transactions && r.monthlyBudgets == s.monthlyBudgets
  {
    s.(categories := s.categories + [Category(d.id, d.name, d.icon, d.color, true)])
  }

  /** Shallow-merges `p` into every category whose identifier's name is `id`; length and order are kept. */
  function UpdateCategory(s: AppState, id: string, p: CategoryPatch): (r: AppState)
    ensures |r.categories| == |s.categories|
    ensures forall i :: 0 <= i < |s.categories| && s.categories[i].id.Name() != id ==> r.categories[i] == s.categories[i]
    ensures forall i :: 0 <= i < |s.categories| && s.categories[i].id.Name() == id ==> r.categories[i] == MergeCategory(s.categories[i], p)
    ensures (forall c :: c in s.categories ==> c.id.Name() != id) ==> r == s
    ensures r.userConfig == s.userConfig && r.transactions == s.transactions && r.monthlyBudgets == s.monthlyBudgets
  {
    var cs := s.categories;
    var updated := seq(|cs|, i requires 0 <= i < |cs| => if cs[i].id.Name() == id then MergeCategory(cs[i], p) else cs[i]);
    assert (forall c :: c in cs ==> c.id.Name() != id) ==> updated == cs;
    s.(categories := updated)
  }

  /** Updating by an identifier's name touches exactly the categories carrying that identifier. */
  lemma UpdateCategoryByIdentifier(s: AppState, c: CategoryId, p: CategoryPatch, i: nat)
    requires i < |s.categories|
    ensures UpdateCategory(s, c.Name(), p).categories[i]
         == if s.categories[i].id == c then MergeCategory(s.categories[i], p) else s.categories[i]
  {
    CategoryIdNameInjective(s.categories[i].id, c);
  }

  /**
   * Upserts the record for `month` with ceiling `budget`, carrying over the
   * previous record's expense and income totals (0 when there was none).
   */
  function SetMonthlyBudget(s: AppState, month: string, budget: real): (r: AppState)
    ensures r.monthlyBudgets.Keys == s.monthlyBudgets.Keys + {month}
    ensures r.monthlyBudgets[month].month == month && r.monthlyBudgets[month].totalBudget == budget
    ensures month in s.monthlyBudgets ==>
              && r.monthlyBudgets[month].totalExpenses == s.monthlyBudgets[month].totalExpenses
              && r.monthlyBudgets[month].totalIncome == s.monthlyBudgets[month].totalIncome
    ensures month !in s.monthlyBudgets ==>
              r.monthlyBudgets[month].totalExpenses == 0.0 && r.monthlyBudgets[month].totalIncome == 0.0
    ensures forall m :: m in s.monthlyBudgets && m != month ==> r.monthlyBudgets[m] == s.monthlyBudgets[m]
    ensures r.userConfig == s.userConfig && r.transactions == s.transactions && r.categories == s.categories
  {
    var prev := s.monthlyBudgets;
    var expenses := if month in prev then prev[month].totalExpenses else 0.0;
    var income := if month in prev then prev[month].totalIncome else 0.0;
    s.(monthlyBudgets := prev[month := MonthlyBudget(month, budget, expenses, income)])
  }

  /** Setting two ceilings for one month in a row leaves only the second, as if the first never happened. */
  lemma SetMonthlyBudgetLastWins(s: AppState, month: string, first: real, second: real)
    ensures SetMonthlyBudget(SetMonthlyBudget(s, month, first), month, second) == SetMonthlyBudget(s, month, second)
  {
    var a := SetMonthlyBudget(SetMonthlyBudget(s, month, first), month, second);
    var b := SetMonthlyBudget(s, month, second);
    assert a.monthlyBudgets == b.monthlyBudgets;
  }

  /** Repeating the same budget call changes nothing more. */
  lemma SetMonthlyBudgetIdempotent(s: AppState, month: string, budget: real)
    ensures SetMonthlyBudget(SetMonthlyBudget(s, month, budget), month, budget) == SetMonthlyBudget(s, month, budget)
  {
    SetMonthlyBudgetLastWins(s, month, budget, budget);
  }

  // ---------------------------------------------------------------------
  // Invariants that callers of the store keep

  /** Every transaction amount is positive. */
  ghost predicate AmountsPositive(ts: seq<Transaction>) {
    forall t :: t in ts ==> t.amount > 0.0
  }

  /** No two transactions share an id. */
  ghost predicate IdsUnique(ts: seq<Transaction>) {
    forall i, j :: 0 <= i < j < |ts| ==> ts[i].id != ts[j].id
  }

  /** Filtering a list with unique ids keeps the ids unique. */
  lemma {:induction false} FilterKeepsIdsUnique(ts: seq<Transaction>, p: Transaction -> bool)
    requires IdsUnique(ts)
    ensures IdsUnique(Filter(ts, p))
  {
    if ts != [] {
      var rest := Filter(ts[1..], p);
      assert IdsUnique(ts[1..]);
      FilterKeepsIdsUnique(ts[1..], p);
      if p(ts[0]) {
        var r := [ts[0]] + rest;
        forall i, j | 0 <= i < j < |r| ensures r[i].id != r[j].id {
          if i == 0 {
            assert r[j] in ts[1..];
          } else {
            assert r[i] == rest[i - 1] && r[j] == rest[j - 1];
          }
        }
      }
    }
  }

  /** Adding under an id no transaction has keeps ids unique. */
  lemma AddFreshKeepsIdsUnique(s: AppState, d: TransactionDraft, id: string)
    requires IdsUnique(s.transactions)
    requires forall t :: t in s.transactions ==> t.id != id
    ensures IdsUnique(AddTransaction(s, d, id).transactions)
  {
    var r := AddTransaction(s, d, id).transactions;
    forall i, j | 0 <= i < j < |r| ensures r[i].id != r[j].id {
      if i == 0 {
        assert r[j] == s.transactions[j - 1];
      } else {
        assert r[i] == s.transactions[i - 1] && r[j] == s.transactions[j - 1];
      }
    }
  }

  /** An update whose patch leaves ids alone keeps every id where it was. */
  lemma UpdateKeepsIds(s: AppState, id: string, p: TransactionPatch)
    requires p.id.None?
    ensures forall i :: 0 <= i < |s.transactions| ==> UpdateTransaction(s, id, p).transactions[i].id == s.transactions[i].id
  {
  }

  /** Adding under a fresh id, deleting, and updating without renaming keep ids unique. */
  lemma IdsStayUnique(s: AppState, d: TransactionDraft, id: string, p: TransactionPatch)
    requires IdsUnique(s.transactions)
    ensures (forall t :: t in s.transactions ==> t.id != id) ==> IdsUnique(AddTransaction(s, d, id).transactions)
    ensures IdsUnique(DeleteTransaction(s, id).transactions)
    ensures p.id.None? ==> IdsUnique(UpdateTransaction(s, id, p).transactions)
  {
    FilterKeepsIdsUnique(s.transactions, KeepUnless(id));
    if forall t :: t in s.transactions ==> t.id != id {
      AddFreshKeepsIdsUnique(s, d, id);
    }
    if p.id.None? {
      UpdateKeepsIds(s, id, p);
    }
  }

  /** One call of a store operation, with the arguments the caller passes. */
  datatype StoreOp =
    | UpdateUserConfigOp(config: ConfigPatch)
    | CompleteOnboardingOp(config: ConfigPatch)
    | AddTransactionOp(draft: TransactionDraft, newId: string)
    | DeleteTransactionOp(id: string)
    | UpdateTransactionOp(id: string, updates: TransactionPatch)
    | AddCategoryOp(category: CategoryDraft)
    | UpdateCategoryOp(id: string, changes: CategoryPatch)
    | SetMonthlyBudgetOp(month: string, budget: real)
    | LogoutOp

  /** The state after one operation. */
  function Apply(s: AppState, op: StoreOp): AppState {
    match op
    case UpdateUserConfigOp(p) => UpdateUserConfig(s, p)
    case CompleteOnboardingOp(p) => CompleteOnboarding(s, p)
    case AddTransactionOp(d, id) => AddTransaction(s, d, id)
    case DeleteTransactionOp(id) => DeleteTransaction(s, id)
    case UpdateTransactionOp(id, p) => UpdateTransaction(s, id, p)
    case AddCategoryOp(d) => AddCategory(s, d)
    case UpdateCategoryOp(id, p) => UpdateCategory(s, id, p)
    case SetMonthlyBudgetOp(m, b) => SetMonthlyBudget(s, m, b)
    case LogoutOp => Bootstrap()
  }

  /** The state after a sequence of operations, applied in order. */
  function Run(s: AppState, ops: seq<StoreOp>): AppState
    decreases |ops|
  {
    if ops == [] then s else Run(Apply(s, ops[0]), ops[1..])
  }

  /** The screens' amount check: a new or replacing amount passed `amount > 0`. */
  predicate AmountChecked(op: StoreOp) {
    match op
    case AddTransactionOp(d, _) => d.amount > 0.0
    case UpdateTransactionOp(_, p) => p.amount.None? || p.amount.value > 0.0
    case _ => true
  }

  /** Adding a transaction with a positive amount keeps every amount positive. */
  lemma AddKeepsAmountsPositive(s: AppState, d: TransactionDraft, id: string)
    requires AmountsPositive(s.transactions) && d.amount > 0.0
    ensures AmountsPositive(AddTransaction(s, d, id).transactions)
  {
    var r := AddTransaction(s, d, id).transactions;
    forall t | t in r ensures t.amount > 0.0 {
      if t != r[0] {
        assert t in r[1..];
      }
    }
  }

  /** An update whose patch leaves the amount out or sets a positive one keeps every amount positive. */
  lemma UpdateKeepsAmountsPositive(s: AppState, id: string, p: TransactionPatch)
    requires AmountsPositive(s.transactions) && (p.amount.None? || p.amount.value > 0.0)
    ensures AmountsPositive(UpdateTransaction(s, id, p).transactions)
  {
    var r := UpdateTransaction(s, id, p).transactions;
    forall t | t in r ensures t.amount > 0.0 {
      var i :| 0 <= i < |r| && r[i] == t;
      assert s.transactions[i] in s.transactions;
    }
  }

  /** One checked operation keeps every amount positive. */
  lemma ApplyKeepsAmountsPositive(s: AppState, op: StoreOp)
    requires AmountsPositive(s.transactions) && AmountChecked(op)
    ensures AmountsPositive(Apply(s, op).transactions)
  {
    match op
    case AddTransactionOp(d, id) => AddKeepsAmountsPositive(s, d, id);
    case UpdateTransactionOp(id, p) => UpdateKeepsAmountsPositive(s, id, p);
    case _ =>
  }

  /** If every add and update passed the screens' amount check, every amount in the store stays positive. */
  lemma {:induction false} RunKeepsAmountsPositive(s: AppState, ops: seq<StoreOp>)
    requires AmountsPositive(s.transactions)
    requires forall i :: 0 <= i < |ops| ==> AmountChecked(ops[i])
    ensures AmountsPositive(Run(s, ops).transactions)
    decreases |ops|
  {
    if ops != [] {
      var next := Apply(s, ops[0]);
      ApplyKeepsAmountsPositive(s, ops[0]);
      assert forall i :: 0 <= i < |ops[1..]| ==> ops[1..][i] == ops[i + 1];
      RunKeepsAmountsPositive(next, ops[1..]);
      assert Run(s, ops) == Run(next, ops[1..]);
    }
  }
}

=== FILE: types.dfy ===
/**
 * The data model of the budget application: transactions, categories,
 * monthly budget records, the user profile and the aggregate application
 * state that the store owns.
 */
module Types {

  /** A nullable value: `None` stands for JavaScript's `null` / a missing key. */
  datatype Option<+T> = None | Some(value: T) {
    /** The value, or `default` when there is none. */
    function GetOr(default: T): T {
      match this
      case Some(v) => v
      case None => default
    }
  }

  /** Direction of a money movement. */
  datatype TransactionType = Expense | Income

  /** The closed enumeration of built-in category identifiers. */
  datatype CategoryId =
    | Alimentation
    | Transport
    | Logement
    | Loisirs
    | Sante
    | Shopping
    | Voyage
    | Education
    | Services
    | Autres
  {
    /** The identifier as the string the application stores and compares. */
    function Name(): string {
      match this
      case Alimentation => "alimentation"
      case Transport => "transport"
      case Logement => "logement"
      case Loisirs => "loisirs"
      case Sante => "sante"
      case Shopping => "shopping"
      case Voyage => "voyage"
      case Education => "education"
      case Services => "services"
      case Autres => "autres"
    }
  }

  /** Every category identifier, in declaration order. */
  function AllCategoryIds(): (ids: seq<CategoryId>)
    ensures |ids| == 10
    ensures forall i, j :: 0 <= i < j < |ids| ==> ids[i] != ids[j]
  {
    [Alimentation, Transport, Logement, Loisirs, Sante,
     Shopping, Voyage, Education, Services, Autres]
  }

  /** The enumeration is closed: every identifier is one of the ten listed. */
  lemma EveryCategoryIdListed(c: CategoryId)
    ensures c in AllCategoryIds()
  {
  }

  /** Distinct identifiers have distinct string names, so comparing names is comparing identifiers. */
  lemma CategoryIdNameInjective(a: CategoryId, b: CategoryId)
    ensures a.Name() == b.Name() <==> a == b
  {
    // the first three characters of the names already tell the identifiers apart
    match a
    case Alimentation => assert a.Name()[..3] == "ali";
    case Transport => assert a.Name()[..3] == "tra";
    case Logement => assert a.Name()[..3] == "log";
    case Loisirs => assert a.Name()[..3] == "loi";
    case Sante => assert a.Name()[..3] == "san";
    case Shopping => assert a.Name()[..3] == "sho";
    case Voyage => assert a.Name()[..3] == "voy";
    case Education => assert a.Name()[..3] == "edu";
    case Services => assert a.Name()[..3] == "ser";
    case Autres => assert a.Name()[..3] == "aut";
  }

  datatype Category = Category(id: CategoryId, name: string, icon: string, color: string, isActive: bool)

  /** Where a transaction came from. */
  datatype Source = Manual | Bank

  /** A single money movement; the source's `type` field is called `kind` here. */
  datatype Transaction = Transaction(
    id: string,
    amount: real,
    kind: TransactionType,
    categoryId: CategoryId,
    date: string,
    note: string,
    source: Source)

  /** The per-month record; only `totalBudget` is read by the month view. */
  datatype MonthlyBudget = MonthlyBudget(month: string, totalBudget: real, totalExpenses: real, totalIncome: real)

  datatype MainGoal = Save | Control | Invest | Clear
  datatype FinancialComfort = Comfortable | Balanced | Tight
  datatype UsageMode = ManualUsage | BankUsage | MixedUsage
  datatype SubscriptionPlan = Free | Monthly | Annual | Lifetime

  datatype UserConfig = UserConfig(
    firstName: string,
    email: string,
    mainGoal: MainGoal,
    financialComfort: FinancialComfort,
    usageMode: UsageMode,
    currency: string,
    firstDayOfWeek: int,
    subscriptionPlan: SubscriptionPlan,
    onboardingCompleted: bool)

  /** The aggregate root: nullable profile, newest-first transactions, categories, budgets by month key. */
  datatype AppState = AppState(
    userConfig: Option<UserConfig>,
    transactions: seq<Transaction>,
    categories: seq<Category>,
    monthlyBudgets: map<string, MonthlyBudget>)

  /** `Omit<Transaction, "id">`: what a caller supplies to add a transaction. */
  datatype TransactionDraft = TransactionDraft(
    amount: real,
    kind: TransactionType,
    categoryId: CategoryId,
    date: string,
    note: string,
    source: Source)

  /** `Omit<Category, "isActive">`: what a caller supplies to add a category. */
  datatype CategoryDraft = CategoryDraft(id: CategoryId, name: string, icon: string, color: string)

  /** `Partial<UserConfig>`: a field that is `Some` overrides, `None` keeps. */
  datatype ConfigPatch = ConfigPatch(
    firstName: Option<string>,
    email: Option<string>,
    mainGoal: Option<MainGoal>,
    financialComfort: Option<FinancialComfort>,
    usageMode: Option<UsageMode>,
    currency: Option<string>,
    firstDayOfWeek: Option<int>,
    subscriptionPlan: Option<SubscriptionPlan>,
    onboardingCompleted: Option<bool>)

  /** `Partial<Transaction>`; note that it may carry a new `id`. */
  datatype TransactionPatch = TransactionPatch(
    id: Option<string>,
    amount: Option<real>,
    kind: Option<TransactionType>,
    categoryId: Option<CategoryId>,
    date: Option<string>,
    note: Option<string>,
    source: Option<Source>)

  /** `Partial<Category>`. */
  datatype CategoryPatch = CategoryPatch(
    id: Option<CategoryId>,
    name: Option<string>,
    icon: Option<string>,
    color: Option<string>,
    isActive: Option<bool>)

  /** A whole profile seen as a patch that sets every field. */
  function FullConfigPatch(c: UserConfig): ConfigPatch {
    ConfigPatch(Some(c.firstName), Some(c.email), Some(c.mainGoal), Some(c.financialComfort), Some(c.usageMode),
                Some(c.currency), Some(c.firstDayOfWeek), Some(c.subscriptionPlan), Some(c.onboardingCompleted))
  }

  /** The patch that sets nothing. */
  function EmptyConfigPatch(): ConfigPatch {
    ConfigPatch(None, None, None, None, None, None, None, None, None)
  }

  /**
   * `{ ...c, ...p }` for a user profile: field by field, the patch wins where it
   * has a value and the profile is kept elsewhere.
   */
  function MergeConfig(c: UserConfig, p: ConfigPatch): (r: UserConfig)
    ensures FullConfigPatch(r) == OverlayConfig(FullConfigPatch(c), p)
    ensures p == EmptyConfigPatch() ==> r == c
  {
    UserConfig(
      p.firstName.GetOr(c.firstName),
      p.email.GetOr(c.email),
      p.mainGoal.GetOr(c.mainGoal),
      p.financialComfort.GetOr(c.financialComfort),
      p.usageMode.GetOr(c.usageMode),
      p.currency.GetOr(c.currency),
      p.firstDayOfWeek.GetOr(c.firstDayOfWeek),
      p.subscriptionPlan.GetOr(c.subscriptionPlan),
      p.onboardingCompleted.GetOr(c.onboardingCompleted))
  }

  /** `{ ...p, ...q }` for two profile patches: the later one wins field by field. */
  function OverlayConfig(p: ConfigPatch, q: ConfigPatch): ConfigPatch {
    ConfigPatch(
      if q.firstName.Some? then q.firstName else p.firstName,
      if q.email.Some? then q.email else p.email,
      if q.mainGoal.Some? then q.mainGoal else p.mainGoal,
      if q.financialComfort.Some? then q.financialComfort else p.financialComfort,
      if q.usageMode.Some? then q.usageMode else p.usageMode,
      if q.currency.Some? then q.currency else p.currency,
      if q.firstDayOfWeek.Some? then q.firstDayOfWeek else p.firstDayOfWeek,
      if q.subscriptionPlan.Some? then q.subscriptionPlan else p.subscriptionPlan,
      if q.onboardingCompleted.Some? then q.onboardingCompleted else p.onboardingCompleted)
  }

  /** Shallow merge composes: merging `p` then `q` is merging their overlay once. */
  lemma MergeConfigComposes(c: UserConfig, p: ConfigPatch, q: ConfigPatch)
    ensures MergeConfig(MergeConfig(c, p), q) == MergeConfig(c, OverlayConfig(p, q))
  {
  }

  /** One field of a shallow merge: the patch's value when it has one, the prior value otherwise. */
  predicate Merged<T(==)>(patch: Option<T>, prior: T, r: T) {
    if patch.Some? then r == patch.value else r == prior
  }

  /** `{ ...t, ...p }` for a transaction. */
  function MergeTransaction(t: Transaction, p: TransactionPatch): (r: Transaction)
    ensures p == TransactionPatch(None, None, None, None, None, None, None) ==> r == t
    ensures Merged(p.id, t.id, r.id) && Merged(p.amount, t.amount, r.amount) && Merged(p.kind, t.kind, r.kind)
    ensures Merged(p.categoryId, t.categoryId, r.categoryId) && Merged(p.date, t.date, r.date)
    ensures Merged(p.note, t.note, r.note) && Merged(p.source, t.source, r.source)
  {
    Transaction(
      p.id.GetOr(t.id),
      p.amount.GetOr(t.amount),
      p.kind.GetOr(t.kind),
      p.categoryId.GetOr(t.categoryId),
      p.date.GetOr(t.date),
      p.note.GetOr(t.note),
      p.source.GetOr(t.source))
  }

  /** `{ ...c, ...p }` for a category. */
  function MergeCategory(c: Category, p: CategoryPatch): (r: Category)
    ensures p == CategoryPatch(None, None, None, None, None) ==> r == c
    ensures Merged(p.id, c.id, r.id) && Merged(p.name, c.name, r.name) && Merged(p.icon, c.icon, r.icon)
    ensures Merged(p.color, c.color, r.color) && Merged(p.isActive, c.isActive, r.isActive)
  {
    Category(
      p.id.GetOr(c.id),
      p.name.GetOr(c.name),
      p.icon.GetOr(c.icon),
      p.color.GetOr(c.color),
      p.isActive.GetOr(c.isActive))
  }

  /** Merging the same transaction patch twice is merging it once. */
  lemma MergeTransactionIdempotent(t: Transaction, p: TransactionPatch)
    ensures MergeTransaction(MergeTransaction(t, p), p) == MergeTransaction(t, p)
  {
  }

  /** Merging the same category patch twice is merging it once. */
  lemma MergeCategoryIdempotent(c: Category, p: CategoryPatch)
    ensures MergeCategory(MergeCategory(c, p), p) == MergeCategory(c, p)
  {
  }
}
